=== FILE: README.md ===
# SwiftConvert conversion core, modelled in Dafny

SwiftConvert is an Android file converter. Its real work is done by FFmpegKit,
Media3 and the Android graphics and PDF classes; around those calls sits a
layer of pure decisions, and that layer is what this project models:

- **FileUtils** (`file_utils.dfy`): base-name stripping, extension replacement,
  the case-insensitive extension-to-MIME table and the MIME-plus-name
  classifier that picks an input's `Category`.
- **TargetFormats** (`target_formats.dfy`): the closed `Category` and
  `TargetFormat` enumerations, each target's display name and extension, the
  ordered option list per category and its default.
- **ConversionManager** (`conversion_manager.dfy`): the total dispatch from
  (category, target) to an operation or an "Unsupported … target" error, the
  suggested name and MIME of every result, and the OTHER path that tries the
  image converter first and reclassifies by MIME when it throws.
- **FFmpegTranscoder** (`ffmpeg_transcoder.dfy`): the argument list of every
  FFmpeg operation, the session check that turns a failed session into an
  error, and the two-step GIF operation.
- **Converter** (`converter.dfy`): the older orchestrator that names the
  output, picks a command from the output extension, tries FFmpeg and falls
  back to Media3 on any FFmpeg failure.
- **SimpleTextToPdf** (`simple_text_to_pdf.dfy`): the text layout loop
  (paragraphs, greedy word wrap, baselines and page breaks).
- **MainViewModel** and **ConvertViewModel** (`main_view_model.dfy`,
  `convert_view_model.dfy`): the two screens' state machines, with each
  background launch split into a start event and a completion event.
- **MainActivity** (`main_activity.dfy`): the `withSafeExtension` name helper.

`results.dfy` (Option/Result/Outcome) and `strings.dfy` (lower-casing,
prefix/suffix tests, `lastIndexOf`, `split`, `replace`, `trimStart`)
are shared helpers.

Engines and I/O are parameters. FFmpeg is an oracle from an argument list to
the session it produced; ConversionManager runs operations through an oracle
`perform` that returns the output file or the thrown exception's message; the
legacy orchestrator takes FFmpeg and Media3 as uninterpreted functions; the
text layout takes the text-width measure and the line height as abstract
non-negative integers.

Behaviours of the code worth noting:
- the GIF palette file is deleted only when both FFmpeg steps succeed;
- the legacy orchestrator falls back to Media3 on any FFmpeg failure,
  including an FFmpeg that ran and failed;
- OTHER inputs are reclassified after any exception from the image attempt;
- temp files (staged inputs, outputs of failed runs, the palette after a
  failure) are not cleaned up; nothing in the model claims they are;
- the text layout splits paragraphs at single spaces, so two spaces in a row
  give an empty word; when the line followed by one space no longer fits,
  that empty word ends the line and then starts the next one, where it
  shows nothing.

## Model

| member | source | states |
|---|---|---|
| TargetFormats.Extension | app/src/main/java/com/example/swiftconvert/conversion/TargetFormats.kt:14-43 | every target's extension is non-empty, lower-case and has no leading dot |
| TargetFormats.DefaultFor | app/src/main/java/com/example/swiftconvert/conversion/TargetFormats.kt:46-52 | the default target of each category is the first entry of that category's option list |
| TargetFormats.OptionsFor | app/src/main/java/com/example/swiftconvert/conversion/TargetFormats.kt:54-60 | every option list is non-empty and duplicate-free, and OTHER's list is IMAGE's list followed by TXT_PDF and HTML_PDF |
| TargetFormats.OptionCounts | app/src/main/java/com/example/swiftconvert/conversion/TargetFormats.kt:55-59 | the lists have 8, 6, 7, 1 and 9 entries for AUDIO, VIDEO, IMAGE, PDF and OTHER |
| TargetFormats.OfferedExactly | app/src/main/java/com/example/swiftconvert/conversion/TargetFormats.kt:54-60 | a category offers a target iff it is the target's home category, or it is OTHER and the target is an image target |
| TargetFormats.LabelsDistinct | app/src/main/java/com/example/swiftconvert/conversion/TargetFormats.kt:3-9 | the five categories have five different labels |
| TargetFormats.DisplayNamesDistinct | app/src/main/java/com/example/swiftconvert/conversion/TargetFormats.kt:14-43 | no two targets share a display name, so a menu entry identifies its target even where extensions are shared |
| TargetFormats.SharedExtensions | app/src/main/java/com/example/swiftconvert/conversion/TargetFormats.kt:18-43 | OPUS and WEBM_VP9_OPUS share "webm", the two MP4 targets share "mp4", PDF, TXT_PDF and HTML_PDF share "pdf", and no other two targets share an extension |
| FileUtils.BaseName | app/src/main/java/com/example/swiftconvert/util/FileUtils.kt:24-27 | the result is a prefix of the name; it is the whole name iff the last '.' is absent or at index 0; otherwise it stops right before the last '.' |
| FileUtils.RenameWithExt | app/src/main/java/com/example/swiftconvert/util/FileUtils.kt:29-33 | the result is the base name, one '.', and the extension with one leading '.' dropped |
| FileUtils.RenameKeepsBaseName | app/src/main/java/com/example/swiftconvert/util/FileUtils.kt:24-33 | renaming a non-empty name to a one-segment extension keeps its base name |
| FileUtils.RenameIdempotent | app/src/main/java/com/example/swiftconvert/util/FileUtils.kt:29-33 | renaming twice to the same one-segment extension equals renaming once |
| FileUtils.BaseNameExamples | app/src/main/java/com/example/swiftconvert/util/FileUtils.kt:24-27 | "archive.tar.gz" has base "archive.tar"; ".hidden" and "noext" are their own base |
| FileUtils.RenameExamples | app/src/main/java/com/example/swiftconvert/util/FileUtils.kt:29-33 | "song.wav" to "mp3" is "song.mp3"; "archive.tar.gz" to ".zip" is "archive.tar.zip" |
| FileUtils.MimeForExt | app/src/main/java/com/example/swiftconvert/util/FileUtils.kt:35-58 | the table is total: the result is application/octet-stream exactly when the lower-cased extension is not one of the listed keys |
| FileUtils.MimeCaseInsensitive | app/src/main/java/com/example/swiftconvert/util/FileUtils.kt:35 | the MIME of an extension equals the MIME of its lower-cased form |
| FileUtils.MimeExamples | app/src/main/java/com/example/swiftconvert/util/FileUtils.kt:35-57 | "M4B" maps to audio/mp4, "Jpeg" to image/jpeg, "txt" to the octet stream |
| FileUtils.CatalogExtensionsHaveMime | app/src/main/java/com/example/swiftconvert/util/FileUtils.kt:35-58 | every catalog target's extension has a specific MIME type |
| FileUtils.CategoryFor | app/src/main/java/com/example/swiftconvert/util/FileUtils.kt:60-74 | VIDEO and IMAGE iff the lower-cased MIME has that prefix; PDF iff no media prefix and (MIME application/pdf or name ending .pdf); AUDIO iff audio prefix or, failing every earlier rule, an audio name suffix |
| FileUtils.MimePrefixIgnoresName | app/src/main/java/com/example/swiftconvert/util/FileUtils.kt:63-66 | a media MIME prefix decides the category whatever the name is |
| FileUtils.MissingNameIsEmpty | app/src/main/java/com/example/swiftconvert/util/FileUtils.kt:62 | a null name classifies like "" |
| FileUtils.AudioOutputsReclassify | app/src/main/java/com/example/swiftconvert/util/FileUtils.kt:67-71 | an audio target's renamed output, offered with the octet-stream MIME, is classified AUDIO by its name (Opus excepted) |
| FileUtils.WebmOutputIsOther | app/src/main/java/com/example/swiftconvert/util/FileUtils.kt:67-72 | a ".webm" name with the octet-stream MIME is classified OTHER, so Opus output is not recognised as audio |
| FFmpegTranscoder.AssertSuccess | app/src/main/java/com/example/swiftconvert/conversion/FFmpegTranscoder.kt:16-23 | passes iff the session exists and its return code is present and is success; a failure message starts "FFmpeg failed (" |
| FFmpegTranscoder.ImageExtraArgs | app/src/main/java/com/example/swiftconvert/conversion/FFmpegTranscoder.kt:107-115 | jpg/jpeg add "-vf format=rgb24 -q:v 2", webp adds "-qscale 80", every other extension adds nothing, matched on the lower-cased extension |
| FFmpegTranscoder.ImageExtraArgsIgnoreCase | app/src/main/java/com/example/swiftconvert/conversion/FFmpegTranscoder.kt:107 | the extra arguments do not depend on the extension's case |
| FFmpegTranscoder.Commands | app/src/main/java/com/example/swiftconvert/conversion/FFmpegTranscoder.kt:28-117 | every command begins "-y -i <staged input>", the last one ends with the output path, audio commands carry -vn, GIF's first step writes the palette and its second reads it |
| FFmpegTranscoder.H264VariantsIdentical | app/src/main/java/com/example/swiftconvert/conversion/FFmpegTranscoder.kt:71-94 | the MP4, MKV and MOV H.264 commands are identical apart from the output path |
| FFmpegTranscoder.InputOnlyAtItsSlot | app/src/main/java/com/example/swiftconvert/conversion/FFmpegTranscoder.kt:28-117 | the staged input path is the only input-dependent token: another input gives the same commands with that token replaced |
| FFmpegTranscoder.RunSteps | app/src/main/java/com/example/swiftconvert/conversion/FFmpegTranscoder.kt:96-101 | steps run in order and stop at the first failed session; success iff every step ran and passed; a failure is the last step's |
| FFmpegTranscoder.Execute | app/src/main/java/com/example/swiftconvert/conversion/FFmpegTranscoder.kt:28-117 | a staging failure runs nothing; otherwise the commands run form a prefix of the operation's commands, success iff all of them passed, and the palette is deleted iff the GIF operation succeeded |
| FFmpegTranscoder.GifStopsAtFailedStep | app/src/main/java/com/example/swiftconvert/conversion/FFmpegTranscoder.kt:96-102 | if palette generation fails the second step never runs, and after any GIF failure the palette is not deleted |
| ConversionManager.AudioOpInjective | app/src/main/java/com/example/swiftconvert/conversion/ConversionManager.kt:40-50 | each audio target has its own FFmpeg operation: two audio targets share one iff they are the same target |
| ConversionManager.ConvertAudio | app/src/main/java/com/example/swiftconvert/conversion/ConversionManager.kt:38-52 | succeeds iff the target is an audio target, with that target's own audio FFmpeg operation, named and typed by the target extension; otherwise "Unsupported audio target" |
| ConversionManager.VideoOpInjective | app/src/main/java/com/example/swiftconvert/conversion/ConversionManager.kt:57-65 | each video target has its own FFmpeg operation: two video targets share one iff they are the same target |
| ConversionManager.ConvertVideo | app/src/main/java/com/example/swiftconvert/conversion/ConversionManager.kt:55-67 | succeeds iff the target is a video target, with that target's own video FFmpeg operation, named and typed by the target extension; otherwise "Unsupported video target" |
| ConversionManager.ConvertImage | app/src/main/java/com/example/swiftconvert/conversion/ConversionManager.kt:70-85 | succeeds iff the target is an image target: PDF goes to the image-to-PDF renderer named "<base>.pdf" with application/pdf, every other image target to a re-encode to its own extension named and typed by it; otherwise "Unsupported image target" |
| ConversionManager.ConvertPdf | app/src/main/java/com/example/swiftconvert/conversion/ConversionManager.kt:88-97 | succeeds iff the target is ZIP_IMAGES, with the page-rendering operation, a name made of the base name and "_images.zip", and application/zip; otherwise "Unsupported PDF target" |
| ConversionManager.ImageJobSuggests | app/src/main/java/com/example/swiftconvert/conversion/ConversionManager.kt:70-85 | every image job's name ends with the target's dotted extension and its MIME is the table's MIME for that extension |
| ConversionManager.PdfJobSuggests | app/src/main/java/com/example/swiftconvert/conversion/ConversionManager.kt:93 | the ZIP archive's name ends ".zip" and application/zip is the table's MIME for the ZIP_IMAGES extension |
| ConversionManager.PdfNamed | app/src/main/java/com/example/swiftconvert/conversion/ConversionManager.kt:81 | "<base>.pdf" with application/pdf fits each of the three PDF targets (also lines 103-106) |
| ConversionManager.Dispatch | app/src/main/java/com/example/swiftconvert/conversion/ConversionManager.kt:23-31 | the category alone picks the sub-converter: AUDIO, VIDEO, IMAGE and PDF give exactly that sub-converter's job (its operation, name and MIME) or its error, so outside OTHER the pair resolves iff the target belongs to the category; OTHER always resolves, to the text renderer's job for TXT and HTML and to image-then-reclassify with the same target otherwise |
| ConversionManager.CatalogPairsResolve | app/src/main/java/com/example/swiftconvert/conversion/ConversionManager.kt:25-123 | every pair the catalog offers reaches a concrete operation, never an "Unsupported … target" error |
| ConversionManager.OffCatalogPairsFail | app/src/main/java/com/example/swiftconvert/conversion/ConversionManager.kt:49 | a target outside a category converter's list fails with that converter's "Unsupported … target" message (also lines 64, 83, 95) |
| ConversionManager.RunJob | app/src/main/java/com/example/swiftconvert/conversion/ConversionManager.kt:34-35 | a run succeeds iff the job resolved and its operation succeeded, and the result carries the produced file with the job's name and MIME |
| ConversionManager.Reclassify | app/src/main/java/com/example/swiftconvert/conversion/ConversionManager.kt:112-120 | an input reclassified as AUDIO, VIDEO or PDF is converted exactly as a direct conversion of that category would be (same failure message, or the performed file with that job's name and MIME); IMAGE or OTHER fails "Unsupported file type or target" |
| ConversionManager.Convert | app/src/main/java/com/example/swiftconvert/conversion/ConversionManager.kt:23-124 | a directly dispatched job succeeds iff its operation succeeds, and then reports the performed file with the job's name and MIME; a dispatch failure is passed through; for OTHER a successful image attempt is final and a failed one hands over to reclassification; every success is named with the target's dotted extension and carries that extension's MIME; a pair outside a non-OTHER category always fails |
| ConversionManager.OtherTriesImageFirst | app/src/main/java/com/example/swiftconvert/conversion/ConversionManager.kt:108-121 | for OTHER the image path runs first and its success is final; only its failure leads to reclassification |
| ConversionManager.ReclassifyTargets | app/src/main/java/com/example/swiftconvert/conversion/ConversionManager.kt:113-120 | reclassification retries as AUDIO, VIDEO or PDF; reclassifying as IMAGE or OTHER fails "Unsupported file type or target" |
| ConversionManager.OtherTextTargets | app/src/main/java/com/example/swiftconvert/conversion/ConversionManager.kt:102-107 | TXT_PDF and HTML_PDF go to the text renderer, named "<base>.pdf" with application/pdf |
| ConversionManager.MimeOnlyForOther | app/src/main/java/com/example/swiftconvert/conversion/ConversionManager.kt:25-31 | outside OTHER the provider's MIME type plays no part in the result |
| ConversionManager.M4bKeepsItsName | app/src/main/java/com/example/swiftconvert/conversion/ConversionManager.kt:42 | the M4B target resolves to the M4B FFmpeg operation and its output is named ".m4b" |
| FFmpegTranscoder.M4bForcesMp4Muxer | app/src/main/java/com/example/swiftconvert/conversion/FFmpegTranscoder.kt:38-43 | the M4B command ends with "-f mp4" and the output path, forcing the MP4 muxer for a ".m4b" file |
| Converter.NameWithoutExtension | app/src/main/java/com/example/swiftconvert/conversion/Converter.kt:31 | the result is the name up to its last '.', or the whole name when it has no '.' |
| Converter.NameWithoutExtensionVersusBaseName | app/src/main/java/com/example/swiftconvert/conversion/Converter.kt:31 | it agrees with FileUtils.BaseName except on names whose last '.' is the first character, where it is "" |
| Converter.OutputPath | app/src/main/java/com/example/swiftconvert/conversion/Converter.kt:31 | the output starts with "<cacheDir>/convert/<name without extension>", ends with "." and the extension with leading dots trimmed, and has exactly the length of those two parts, so it is their concatenation |
| Converter.CodecArgs | app/src/main/java/com/example/swiftconvert/conversion/Converter.kt:36-41 | the codec arguments are empty exactly for the extensions other than m4a, mp3 and mp4, and otherwise end with a space |
| Converter.Command | app/src/main/java/com/example/swiftconvert/conversion/Converter.kt:35-41 | every command starts ' -y -i "<in>" ' and ends ' "<out>"'; extensions other than m4a, mp3 and mp4 get no codec arguments at all |
| Converter.FallbackFor | app/src/main/java/com/example/swiftconvert/conversion/Converter.kt:50-54 | Media3's audio-to-AAC entry is used iff the extension is m4a; mp4 and everything else use the MP4 transcode |
| Converter.Convert | app/src/main/java/com/example/swiftconvert/conversion/Converter.kt:29-60 | a failed staging fails "Failed to read input" with no engine call; FFmpeg always runs first; Media3 runs iff FFmpeg failed; success iff either engine succeeded, and only then is the output file reported; the message is "FFmpeg success: " with FFmpeg's return-code label, "Media3 success", or "FFmpeg unavailable (<FFmpeg error, or 'no AAR'>) and Media3 failed (<Media3 error, or 'unknown'>)" |
| Converter.ExtensionCaseIgnored | app/src/main/java/com/example/swiftconvert/conversion/Converter.kt:35-53 | the FFmpeg command and the Media3 entry point are both chosen from the lower-cased extension |
| Converter.FallbackOnAnyFailure | app/src/main/java/com/example/swiftconvert/conversion/Converter.kt:44-56 | an FFmpeg failure followed by a Media3 success reports success with the output file |
| SimpleTextToPdf.Advance | app/src/main/java/com/example/swiftconvert/conversion/SimpleTextToPdf.kt:53-58 | y advances by one line height; the page is finished and the next starts at the margin iff y passes page height minus margin |
| SimpleTextToPdf.Skip | app/src/main/java/com/example/swiftconvert/conversion/SimpleTextToPdf.kt:53-60 | an empty paragraph draws nothing and moves the pen exactly as one line advance does: down one line height, or to the top of the next page when that passes the bottom margin |
| SimpleTextToPdf.DownsAdd | app/src/main/java/com/example/swiftconvert/conversion/SimpleTextToPdf.kt:53-58 | advancing a lines and then b lines lands where advancing a + b lines does |
| SimpleTextToPdf.TrailEmit | app/src/main/java/com/example/swiftconvert/conversion/SimpleTextToPdf.kt:78-85 | drawing one more line at the pen continues a run of lines one advance apart, with the pen one advance past the last |
| SimpleTextToPdf.PlacedStep | app/src/main/java/com/example/swiftconvert/conversion/SimpleTextToPdf.kt:52-86 | after rendering one more paragraph, every line is still k advances plus one per earlier empty paragraph below the top, and the pen is one advance further per new line, or one for an empty paragraph |
| SimpleTextToPdf.Emit | app/src/main/java/com/example/swiftconvert/conversion/SimpleTextToPdf.kt:78-85 | drawing a line places it at the pen and advances, keeping the layout invariant |
| SimpleTextToPdf.WrapStep | app/src/main/java/com/example/swiftconvert/conversion/SimpleTextToPdf.kt:63-76 | a word joins the line (after one space) iff the measured result fits the content width; otherwise the line is emitted and the word starts the next |
| SimpleTextToPdf.JoinedFits | app/src/main/java/com/example/swiftconvert/conversion/SimpleTextToPdf.kt:66-76 | a word joined because the result fits keeps the line drawable: every prefix tried so far, including the old line, fitted |
| SimpleTextToPdf.WiderPrefixBreaks | app/src/main/java/com/example/swiftconvert/conversion/SimpleTextToPdf.kt:63-72 | when "a b" is too wide, "a b c" is never a drawn line, whatever it measures, because the loop would have broken after "a" |
| SimpleTextToPdf.OverlongFirstWordEmitsEmptyLine | app/src/main/java/com/example/swiftconvert/conversion/SimpleTextToPdf.kt:64-66 | a word wider than the content width at the start of a paragraph first emits an empty line, then starts the next line |
| SimpleTextToPdf.WrapOne | app/src/main/java/com/example/swiftconvert/conversion/SimpleTextToPdf.kt:63-77 | one word either joins the line, leaving the layout exactly as it was, or draws the pending line at the pen and advances (exactly one Emit), and it draws iff the joined line does not fit; the words drawn so far followed by those on the pending line are the paragraph's first words, and a drawn line is one the next word did not fit on |
| SimpleTextToPdf.RenderParagraph | app/src/main/java/com/example/swiftconvert/conversion/SimpleTextToPdf.kt:52-86 | an empty paragraph is exactly one pen advance with nothing drawn; otherwise the k-th new line sits k line advances below the starting pen and the pen ends one advance below the last new line; the new lines, all tagged with the paragraph, show exactly the paragraph's non-empty words in order, earlier lines and other paragraphs' words are untouched, and the layout invariant (margins, stacking, greedy, maximal) holds |
| SimpleTextToPdf.Stacked | app/src/main/java/com/example/swiftconvert/conversion/SimpleTextToPdf.kt:66-85 | lines each drawn at least one line height above the next (or on an earlier page) are each above every later line |
| SimpleTextToPdf.RenderText | app/src/main/java/com/example/swiftconvert/conversion/SimpleTextToPdf.kt:24-89 | line k sits exactly k line advances plus one advance per earlier empty paragraph below the top margin of page 1 (an advance moves down one line height, or to the top margin of the next page once past the bottom margin); the pages are exactly 1, 2, …, N where N is the page reached after one advance per line and per empty paragraph; every line lies between the margins; lines on a page are at least one line height apart; the lines of each paragraph (text without '\r', split at '\n') show exactly that paragraph's space-separated non-empty words in order, paragraph after paragraph; every line fits or is a single word, and every longer prefix of it that the loop tried (its first word followed by more words, up to a space) fitted too; a line is followed within its paragraph only by a line whose first word would not have fitted on it (or, after two spaces in a row, when not even the line and one space fit); no line spans a line break |
| MainViewModel.Initial | app/src/main/java/com/example/swiftconvert/MainViewModel.kt:16-27 | no input, name or category; the target is the OTHER default; nothing is converting or ready to export; the message and the suggested name and MIME are empty; there is no temp output and nothing has been deleted |
| MainViewModel.SetInput | app/src/main/java/com/example/swiftconvert/MainViewModel.kt:37-48 | sets input, name and category, resets the target to the category default, clears the message, withdraws the export and drops the temp output |
| MainViewModel.SetTarget | app/src/main/java/com/example/swiftconvert/MainViewModel.kt:50-52 | changes only the target |
| MainViewModel.ConvertStart | app/src/main/java/com/example/swiftconvert/MainViewModel.kt:54-66 | without an input nothing changes; otherwise converting is set, export withdrawn, and the request carries the category (OTHER when unknown) and the target |
| MainViewModel.ConvertSucceeded | app/src/main/java/com/example/swiftconvert/MainViewModel.kt:70-80 | converting ends, the message becomes "Conversion finished. Click 'Save As…' to export.", export becomes ready, name and MIME come from the result and the rest of the screen (input, name, category, target) is unchanged; the previous temp output is deleted and the result's file becomes the temp output; the state is consistent |
| MainViewModel.ConvertFailed | app/src/main/java/com/example/swiftconvert/MainViewModel.kt:81-85 | converting ends and the message is "Error: " followed by the exception's message, or its class name when it has none; export readiness and the temp output are unchanged |
| MainViewModel.ExportToUri | app/src/main/java/com/example/swiftconvert/MainViewModel.kt:90-101 | without a temp output nothing changes; otherwise the export is withdrawn, the message is "Saved successfully." and the temp output and deleted files are unchanged |
| MainViewModel.HappyPath | app/src/main/java/com/example/swiftconvert/MainViewModel.kt:37-101 | input, start, success, export: ready to export exactly after the success, withdrawn after the save |
| ConvertViewModel.Initial | app/src/main/java/com/example/swiftconvert/ui/ConvertViewModel.kt:14-20 | nothing is selected, the extension is "m4a", nothing is in progress, the message is empty and there is no last output path |
| ConvertViewModel.SetSelected | app/src/main/java/com/example/swiftconvert/ui/ConvertViewModel.kt:25-27 | changes only the selection |
| ConvertViewModel.SetExt | app/src/main/java/com/example/swiftconvert/ui/ConvertViewModel.kt:29-31 | changes only the output extension |
| ConvertViewModel.ConvertStart | app/src/main/java/com/example/swiftconvert/ui/ConvertViewModel.kt:33-38 | without a selection only the message becomes "Pick a file first"; otherwise progress starts with "Converting..." and the selection is launched |
| ConvertViewModel.ConvertComplete | app/src/main/java/com/example/swiftconvert/ui/ConvertViewModel.kt:42-46 | progress ends, the outcome's message is shown and the last output path is the outcome's file or none |
| ConvertViewModel.FailureClearsOutput | app/src/main/java/com/example/swiftconvert/ui/ConvertViewModel.kt:41-46 | a failed orchestrator run leaves no last output path; a successful one leaves one |
| MainActivity.WithSafeExtension | app/src/main/java/com/example/swiftconvert/MainActivity.kt:169-172 | a name already ending with the dotted extension is returned unchanged, and any other name gets the dotted extension appended; the result always ends with it |
| MainActivity.WithSafeExtensionIdempotent | app/src/main/java/com/example/swiftconvert/MainActivity.kt:169-172 | applying the helper twice equals applying it once |
| MainActivity.ConvertedNamesNeedNoFix | app/src/main/java/com/example/swiftconvert/MainActivity.kt:169-171 | a converted file's suggested name already ends with its target's extension, so the helper leaves it unchanged |

## Left out

- Engines: FFmpegKit execution, its session history and logs, Media3's Transformer and its polling thread are oracles or function parameters; the entry points the legacy orchestrator calls on them are not part of this model.
- I/O: content-resolver queries, staging copies (`copyToTemp`, `copyUriToCache`), reading text, writing PDFs and ZIP archives; each is an abstract success or failure.
- MainViewModel.ExportToUri: only the state after the copy completes is modelled; the copy itself is not, and since a destination whose output stream cannot be opened skips the copy silently, that case also ends in "Saved successfully." (MainViewModel.kt:93-98); an exception thrown by the copy is not modelled.
- Renderers: image decoding, PDF page rendering and ZIP entry writing (`PdfConverter`) are the abstract operations ImageToPdf and PdfToZip.
- Temp-file lifetime: which temp files exist on disk is not tracked, apart from the GIF palette's deletion flag and the view model's deleted-file list.
- Concurrency: the coroutine launches are split into start and completion events; interleavings are whatever sequence of events the caller applies.
- Floating point: the `progress` field, Paint's font spacing and `measureText` are dropped or replaced by abstract integers.
- Drawing target: the renderer draws on page 1's canvas throughout; the model records each line's logical page, not which canvas receives its pixels.
- Command strings: FFmpeg commands are token lists; a staged path containing a space would be split into several tokens by FFmpegKit, which the model does not show.
- UI: the Compose screens, the file pickers and the theme.
- FileUtils.MimeForExt: lower-cases ASCII letters only, where Kotlin's `lowercase()` also maps non-ASCII letters.
- FileUtils.CategoryFor: lower-cases ASCII letters only, as above.
- FFmpegTranscoder.ImageExtraArgs: lower-cases ASCII letters only, as above.
- Converter.Convert: lower-cases ASCII letters only, as above; the legacy screen reads the output extension when the background work starts, which the model takes as the extension at start.

=== FILE: conversion_manager.dfy ===
/** Strategy dispatch: from an input's category and the chosen target to the
    operation that produces the output, together with the file name and
    MIME type the result will suggest. Running an operation (staging the
    input, creating the temp output, invoking FFmpeg or a renderer) is an
    oracle `perform` that yields the output file or the message of the
    exception it threw. */
module ConversionManager {
  import opened Results
  import opened Strings
  import opened TargetFormats
  import opened FileUtils
  import opened FFmpegTranscoder

  /** The operations a conversion can run. */
  datatype Operation =
    | Ffmpeg(ffOp: FfOp)   // an FFmpeg re-encode
    | ImageToPdf           // single-page PDF from an image
    | PdfToZip             // every PDF page rendered to PNG, zipped
    | TextToPdf            // plain text laid out on PDF pages

  /** A resolved conversion: the operation, and the name and MIME type the
      result will carry. */
  datatype Job = Job(op: Operation, suggestedName: string, suggestedMime: string)

  /** How a (category, target) pair is handled: one job, or, for OTHER
      inputs, the image path first and reclassification by MIME if that
      throws. */
  datatype Strategy = Direct(job: Job) | ImageThenReclassify(target: TargetFormat)

  /** The converted file handed back to the caller. */
  datatype ConversionResult = ConversionResult(outputFile: string, suggestedMime: string, suggestedName: string)

  /** The sub-converter category an operation belongs to. */
  function OpCategory(op: Operation): Category {
    match op
    case Ffmpeg(f) => if f.IsAudio() then Audio else if f.IsVideo() then Video else Image
    case ImageToPdf => Image
    case PdfToZip => Pdf
    case TextToPdf => Other
  }

  /** An FFmpeg job named and typed by the target's extension. */
  function Res(f: FfOp, t: TargetFormat, name: string): Job {
    Job(Ffmpeg(f), RenameWithExt(name, Extension(t)), MimeForExt(Extension(t)))
  }

  predicate NamedByExtension(j: Job, t: TargetFormat, name: string) {
    j.suggestedName == RenameWithExt(name, Extension(t)) && j.suggestedMime == MimeForExt(Extension(t))
  }

  /** The FFmpeg operation of each audio target. */
  function AudioOp(t: TargetFormat): (f: FfOp)
    requires HomeCategory(t) == Audio
    ensures f.IsAudio()
  {
    match t
    case Mp3 => AudioToMp3
    case M4aAac => AudioToAacM4a
    case M4bAac => AudioToM4b
    case AacAdts => AudioToAdtsAac
    case Opus => AudioToOpusWebm
    case OggVorbis => AudioToOggVorbis
    case Flac => AudioToFlac
    case _ => AudioToWav
  }

  /** Each audio target has an FFmpeg operation of its own. */
  lemma AudioOpInjective(t: TargetFormat, u: TargetFormat)
    requires HomeCategory(t) == Audio && HomeCategory(u) == Audio
    ensures AudioOp(t) == AudioOp(u) <==> t == u
  {
  }

  function ConvertAudio(t: TargetFormat, name: string): (r: Result<Job, string>)
    ensures r.Success? <==> HomeCategory(t) == Audio
    ensures r.Success? ==> OpCategory(r.value.op) == Audio && NamedByExtension(r.value, t, name)
    ensures r.Success? ==> r.value.op == Ffmpeg(AudioOp(t))
    ensures r.Failure? ==> r.error == "Unsupported audio target"
  {
    if HomeCategory(t) == Audio then Success(Res(AudioOp(t), t, name))
    else Failure("Unsupported audio target")
  }

  /** The FFmpeg operation of each video target. */
  function VideoOp(t: TargetFormat): (f: FfOp)
    requires HomeCategory(t) == Video
    ensures f.IsVideo() && !f.IsAudio()
  {
    match t
    case Mp4H264Aac => VideoToMp4H264Aac
    case Mp4H265Aac => VideoToMp4H265Aac
    case WebmVp9Opus => VideoToWebmVp9Opus
    case MkvH264Aac => VideoToMkvH264Aac
    case MovH264Aac => VideoToMovH264Aac
    case _ => VideoToGif
  }

  /** Each video target has an FFmpeg operation of its own. */
  lemma VideoOpInjective(t: TargetFormat, u: TargetFormat)
    requires HomeCategory(t) == Video && HomeCategory(u) == Video
    ensures VideoOp(t) == VideoOp(u) <==> t == u
  {
  }

  function ConvertVideo(t: TargetFormat, name: string): (r: Result<Job, string>)
    ensures r.Success? <==> HomeCategory(t) == Video
    ensures r.Success? ==> OpCategory(r.value.op) == Video && NamedByExtension(r.value, t, name)
    ensures r.Success? ==> r.value.op == Ffmpeg(VideoOp(t))
    ensures r.Failure? ==> r.error == "Unsupported video target"
  {
    if HomeCategory(t) == Video then Success(Res(VideoOp(t), t, name))
    else Failure("Unsupported video target")
  }

  const PdfMime := "application/pdf"

  function ConvertImage(t: TargetFormat, name: string): (r: Result<Job, string>)
    ensures r.Success? <==> HomeCategory(t) == Image
    ensures r.Success? ==> OpCategory(r.value.op) == Image
    ensures r.Success? && t != ImagePdf ==>
      r.value.op == Ffmpeg(ImageReencode(Extension(t))) && NamedByExtension(r.value, t, name)
    ensures r.Success? && t == ImagePdf ==> r.value == Job(ImageToPdf, RenameWithExt(name, "pdf"), PdfMime)
    ensures r.Failure? ==> r.error == "Unsupported image target"
  {
    if HomeCategory(t) != Image then Failure("Unsupported image target")
    else if t == ImagePdf then Success(Job(ImageToPdf, RenameWithExt(name, "pdf"), PdfMime))
    else Success(Res(ImageReencode(Extension(t)), t, name))
  }

  function ConvertPdf(t: TargetFormat, name: string): (r: Result<Job, string>)
    ensures r.Success? <==> t == ZipImages
    ensures r.Success? ==> r.value.op == PdfToZip && OpCategory(r.value.op) == Pdf
    ensures r.Success? ==> StartsWith(r.value.suggestedName, BaseName(name))
    ensures r.Success? ==> r.value.suggestedName[|BaseName(name)|..] == "_images.zip"
    ensures r.Success? ==> r.value.suggestedMime == "application/zip"
    ensures r.Failure? ==> r.error == "Unsupported PDF target"
  {
    if t == ZipImages then
      var n := BaseName(name) + "_images.zip";
      assert n[..|BaseName(name)|] == BaseName(name);
      Success(Job(PdfToZip, n, "application/zip"))
    else Failure("Unsupported PDF target")
  }

  /** The text renderer's job for the two text-to-PDF targets. */
  function TextJob(name: string): Job {
    Job(TextToPdf, RenameWithExt(name, "pdf"), PdfMime)
  }

  /** A sub-converter's job as a direct strategy; its error passes through. */
  function Lift(j: Result<Job, string>): Result<Strategy, string> {
    match j
    case Success(job) => Success(Direct(job))
    case Failure(e) => Failure(e)
  }

  /** The strategy for a category and target; the category alone selects
      the sub-converter. Outside OTHER a pair resolves exactly when the
      target belongs to the category; OTHER always resolves, to the text
      renderer for the text targets and to image-then-reclassify otherwise. */
  function Dispatch(c: Category, t: TargetFormat, name: string): (r: Result<Strategy, string>)
    ensures c != Other ==> (r.Success? <==> HomeCategory(t) == c)
    ensures c == Other ==> r.Success?
    ensures r.Success? && r.value.Direct? ==> OpCategory(r.value.job.op) == c
    ensures r.Success? && r.value.ImageThenReclassify? ==>
      c == Other && r.value.target == t && t != TxtPdf && t != HtmlPdf
    ensures c == Audio ==> r == Lift(ConvertAudio(t, name))
    ensures c == Video ==> r == Lift(ConvertVideo(t, name))
    ensures c == Image ==> r == Lift(ConvertImage(t, name))
    ensures c == Pdf ==> r == Lift(ConvertPdf(t, name))
    ensures c == Other && (t == TxtPdf || t == HtmlPdf) ==> r == Success(Direct(TextJob(name)))
  {
    match c
    case Audio => Lift(ConvertAudio(t, name))
    case Video => Lift(ConvertVideo(t, name))
    case Image => Lift(ConvertImage(t, name))
    case Pdf => Lift(ConvertPdf(t, name))
    case Other =>
      if t == TxtPdf || t == HtmlPdf then Success(Direct(TextJob(name)))
      else Success(ImageThenReclassify(t))
  }

  /** Every pair the catalog offers reaches a concrete operation: none of
      them ends in an "Unsupported ... target" error, and OTHER's image-first
      attempt always has an image job to run. */
  lemma CatalogPairsResolve(c: Category, t: TargetFormat, name: string)
    requires t in OptionsFor(c)
    ensures Dispatch(c, t, name).Success?
    ensures Dispatch(c, t, name).value.ImageThenReclassify? ==> ConvertImage(t, name).Success?
  {
    OfferedExactly(c, t);
  }

  /** A pair outside the catalog fails with the sub-converter's message. */
  lemma OffCatalogPairsFail(c: Category, t: TargetFormat, name: string)
    requires c != Other && t !in OptionsFor(c)
    ensures Dispatch(c, t, name).Failure?
    ensures Dispatch(c, t, name).error ==
      match c
      case Audio => "Unsupported audio target"
      case Video => "Unsupported video target"
      case Image => "Unsupported image target"
      case _ => "Unsupported PDF target"
  {
    OfferedExactly(c, t);
  }

  /** Runs a job: the result pairs the produced file with the job's name
      and MIME, and any failure is passed through. */
  function RunJob(j: Result<Job, string>, perform: Operation -> Result<string, string>): (r: Result<ConversionResult, string>)
    ensures r.Success? <==> j.Success? && perform(j.value.op).Success?
    ensures r.Success? ==> (r.value.outputFile == perform(j.value.op).value &&
      r.value.suggestedName == j.value.suggestedName && r.value.suggestedMime == j.value.suggestedMime)
    ensures j.Failure? ==> r == Failure(j.error)
  {
    match j
    case Failure(e) => Failure(e)
    case Success(job) =>
      match perform(job.op)
      case Failure(e) => Failure(e)
      case Success(out) => Success(ConversionResult(out, job.suggestedMime, job.suggestedName))
  }

  /** OTHER inputs whose image attempt threw: reclassify by the provider's
      MIME type (missing means "") and the name, and retry as that category. */
  function Reclassify(t: TargetFormat, name: string, providerMime: Option<string>,
                      perform: Operation -> Result<string, string>): (r: Result<ConversionResult, string>)
    ensures var c := CategoryFor(providerMime.GetOr(""), Some(name));
      (c == Audio || c == Video || c == Pdf ==> r == Retried(Dispatch(c, t, name), perform)) &&
      (c == Image || c == Other ==> r == Failure("Unsupported file type or target"))
  {
    match CategoryFor(providerMime.GetOr(""), Some(name))
    case Audio => RunJob(ConvertAudio(t, name), perform)
    case Video => RunJob(ConvertVideo(t, name), perform)
    case Pdf => RunJob(ConvertPdf(t, name), perform)
    case _ => Failure("Unsupported file type or target")
  }

  /** A resolved dispatch run as a direct job. */
  function Retried(d: Result<Strategy, string>, perform: Operation -> Result<string, string>): (r: Result<ConversionResult, string>)
    requires d.Success? ==> d.value.Direct?
    ensures r.Success? <==> d.Success? && perform(d.value.job.op).Success?
    ensures r.Success? ==> (r.value.outputFile == perform(d.value.job.op).value &&
      r.value.suggestedName == d.value.job.suggestedName && r.value.suggestedMime == d.value.job.suggestedMime)
    ensures d.Failure? ==> r == Failure(d.error)
  {
    if d.Failure? then Failure(d.error) else RunJob(Success(d.value.job), perform)
  }

  /** A name and MIME type that fit target `t`: the name ends with the
      target's dotted extension and the MIME is that extension's. */
  predicate Suggests(suggestedName: string, suggestedMime: string, t: TargetFormat) {
    EndsWith(suggestedName, "." + Extension(t)) && suggestedMime == MimeForExt(Extension(t))
  }

  /** `convert`: dispatch, then run. Every successful result is named after
      the input with the target's extension and carries the MIME type of
      that extension. */
  function Convert(c: Category, t: TargetFormat, name: string, providerMime: Option<string>,
                   perform: Operation -> Result<string, string>): (r: Result<ConversionResult, string>)
    ensures r.Success? ==> Suggests(r.value.suggestedName, r.value.suggestedMime, t)
    ensures c != Other && HomeCategory(t) != c ==> r.Failure?
    ensures var d := Dispatch(c, t, name);
      d.Success? && d.value.Direct? ==>
        (r.Success? <==> perform(d.value.job.op).Success?) &&
        (r.Success? ==> (r.value.outputFile == perform(d.value.job.op).value &&
          r.value.suggestedName == d.value.job.suggestedName && r.value.suggestedMime == d.value.job.suggestedMime))
    ensures var d := Dispatch(c, t, name);
      d.Failure? ==> r == Failure(d.error)
    ensures var img := ConvertImage(t, name);
      Dispatch(c, t, name).Success? && Dispatch(c, t, name).value.ImageThenReclassify? ==>
        (img.Success? && perform(img.value.op).Success? ==> r == RunJob(img, perform)) &&
        (!(img.Success? && perform(img.value.op).Success?) ==> r == Reclassify(t, name, providerMime, perform))
  {
    match Dispatch(c, t, name)
    case Failure(e) => Failure(e)
    case Success(Direct(job)) =>
      DirectJobSuggests(c, t, name);
      RunJob(Success(job), perform)
    case Success(ImageThenReclassify(_)) =>
      var first := RunJob(ConvertImage(t, name), perform);
      ImageJobSuggests(t, name);
      if first.Success? then first
      else
        ReclassifySuggests(t, name, providerMime, perform);
        Reclassify(t, name, providerMime, perform)
  }

  lemma JobSuggests(j: Result<Job, string>, t: TargetFormat, name: string)
    requires j.Success? ==> NamedByExtension(j.value, t, name)
    ensures j.Success? ==> Suggests(j.value.suggestedName, j.value.suggestedMime, t)
  {
    if j.Success? {
      assert SafeExt(Extension(t)) == Extension(t);
    }
  }

  lemma DirectJobSuggests(c: Category, t: TargetFormat, name: string)
    ensures var d := Dispatch(c, t, name);
      d.Success? && d.value.Direct? ==> Suggests(d.value.job.suggestedName, d.value.job.suggestedMime, t)
  {
    match c
    case Audio => JobSuggests(ConvertAudio(t, name), t, name);
    case Video => JobSuggests(ConvertVideo(t, name), t, name);
    case Image => ImageJobSuggests(t, name);
    case Pdf => PdfJobSuggests(t, name);
    case Other => if t == TxtPdf || t == HtmlPdf { PdfNamed(t, name); }
  }

  lemma ImageJobSuggests(t: TargetFormat, name: string)
    ensures var j := ConvertImage(t, name);
      j.Success? ==> Suggests(j.value.suggestedName, j.value.suggestedMime, t)
  {
    if t == ImagePdf {
      PdfNamed(t, name);
    } else {
      JobSuggests(ConvertImage(t, name), t, name);
    }
  }

  lemma PdfJobSuggests(t: TargetFormat, name: string)
    ensures var j := ConvertPdf(t, name);
      j.Success? ==> Suggests(j.value.suggestedName, j.value.suggestedMime, t)
  {
    if t == ZipImages {
      var s := ConvertPdf(t, name).value.suggestedName;
      var b := BaseName(name);
      assert s == b + "_images.zip";
      assert s[|s| - 4..] == ".zip";
      assert Extension(t) == "zip";
      assert "." + "zip" == ".zip";
      DocumentMimes();
    }
  }

  /** The three PDF targets name the output "<base>.pdf" with the PDF MIME
      type, which is what the extension table gives for "pdf". */
  lemma PdfNamed(t: TargetFormat, name: string)
    requires t == ImagePdf || t == TxtPdf || t == HtmlPdf
    ensures Suggests(RenameWithExt(name, "pdf"), PdfMime, t)
  {
    DocumentMimes();
    assert Extension(t) == "pdf";
    assert !StartsWith("pdf", ".") by { assert "pdf"[..1] != "."; }
    assert SafeExt("pdf") == "pdf";
    assert "." + "pdf" == ".pdf";
  }

  lemma ReclassifySuggests(t: TargetFormat, name: string, providerMime: Option<string>,
                           perform: Operation -> Result<string, string>)
    ensures var r := Reclassify(t, name, providerMime, perform);
      r.Success? ==> Suggests(r.value.suggestedName, r.value.suggestedMime, t)
  {
    var r := Reclassify(t, name, providerMime, perform);
    match CategoryFor(providerMime.GetOr(""), Some(name))
    case Audio =>
      assert r == RunJob(ConvertAudio(t, name), perform);
      JobSuggests(ConvertAudio(t, name), t, name);
    case Video =>
      assert r == RunJob(ConvertVideo(t, name), perform);
      JobSuggests(ConvertVideo(t, name), t, name);
    case Pdf =>
      assert r == RunJob(ConvertPdf(t, name), perform);
      PdfJobSuggests(t, name);
    case _ =>
  }

  /** For OTHER inputs, the image path is tried first; its success is final
      and the provider's MIME type is never consulted. Only when it throws
      is the input reclassified. */
  lemma OtherTriesImageFirst(t: TargetFormat, name: string, providerMime: Option<string>,
                             perform: Operation -> Result<string, string>)
    requires t != TxtPdf && t != HtmlPdf
    ensures var first := RunJob(ConvertImage(t, name), perform);
      Convert(Other, t, name, providerMime, perform) ==
        if first.Success? then first else Reclassify(t, name, providerMime, perform)
  {
  }

  /** Reclassification reaches only audio, video and PDF; an input
      reclassified as IMAGE or OTHER fails. */
  lemma ReclassifyTargets(t: TargetFormat, name: string, providerMime: Option<string>,
                          perform: Operation -> Result<string, string>)
    ensures var cat := CategoryFor(providerMime.GetOr(""), Some(name));
      (cat == Image || cat == Other) ==>
        Reclassify(t, name, providerMime, perform) == Failure("Unsupported file type or target")
    ensures var cat := CategoryFor(providerMime.GetOr(""), Some(name));
      cat in {Audio, Video, Pdf} ==>
        Reclassify(t, name, providerMime, perform) == Convert(cat, t, name, providerMime, perform)
  {
  }

  /** The text targets of OTHER go straight to the text renderer. */
  lemma OtherTextTargets(t: TargetFormat, name: string, providerMime: Option<string>,
                         perform: Operation -> Result<string, string>)
    requires t == TxtPdf || t == HtmlPdf
    ensures Convert(Other, t, name, providerMime, perform) == RunJob(Success(TextJob(name)), perform)
  {
  }

  /** Outside OTHER the provider's MIME type plays no part. */
  lemma MimeOnlyForOther(c: Category, t: TargetFormat, name: string, m1: Option<string>, m2: Option<string>,
                         perform: Operation -> Result<string, string>)
    requires c != Other
    ensures Convert(c, t, name, m1, perform) == Convert(c, t, name, m2, perform)
  {
  }

  /** The audiobook target keeps its ".m4b" name and runs the M4B
      operation, whose command forces FFmpeg's MP4 muxer (see
      FFmpegTranscoder.M4bForcesMp4Muxer). */
  lemma M4bKeepsItsName(name: string)
    ensures ConvertAudio(M4bAac, name).Success?
    ensures ConvertAudio(M4bAac, name).value.op == Ffmpeg(AudioToM4b)
    ensures EndsWith(ConvertAudio(M4bAac, name).value.suggestedName, ".m4b")
  {
    assert Extension(M4bAac) == "m4b";
    assert SafeExt("m4b") == "m4b";
    assert "." + "m4b" == ".m4b";
  }
}

=== FILE: convert_view_model.dfy ===
/** The alternative screen's state machine around the legacy orchestrator:
    pick a file, pick an output extension, convert (start, then complete). */
module ConvertViewModel {
  import opened Results
  import Converter

  datatype UiState = UiState(
    selected: Option<string>,
    outExt: string,
    inProgress: bool,
    message: string,
    lastOutputPath: Option<string>
  )

  function Initial(): (r: UiState)
    ensures r.selected.None? && r.outExt == "m4a" && !r.inProgress && r.lastOutputPath.None?
    ensures r.message == ""
  {
    UiState(None, "m4a", false, "", None)
  }

  /** `setSelected` changes only the selection. */
  function SetSelected(s: UiState, uri: Option<string>): (r: UiState)
    ensures r.selected == uri
    ensures r.(selected := s.selected) == s
  {
    s.(selected := uri)
  }

  /** `setExt` changes only the output extension. */
  function SetExt(s: UiState, ext: string): (r: UiState)
    ensures r.outExt == ext
    ensures r.(outExt := s.outExt) == s
  {
    s.(outExt := ext)
  }

  /** `convert`, up to the launch: without a selection only the message
      changes and nothing is launched; otherwise the state shows progress and
      the selected URI is handed to the background conversion. */
  function ConvertStart(s: UiState): (r: (UiState, Option<string>))
    ensures s.selected.None? ==> r == (s.(message := "Pick a file first"), None)
    ensures s.selected.Some? ==>
      r == (s.(inProgress := true, message := "Converting..."), s.selected)
  {
    match s.selected
    case None => (s.(message := "Pick a file first"), None)
    case Some(uri) => (s.(inProgress := true, message := "Converting..."), Some(uri))
  }

  /** The background conversion returned: progress ends, its message is
      shown, and the last output path is the output file's, or none. */
  function ConvertComplete(s: UiState, result: Converter.ConvertOutcome): (r: UiState)
    ensures !r.inProgress && r.message == result.message
    ensures r.lastOutputPath == result.outputFile
    ensures r.selected == s.selected && r.outExt == s.outExt
  {
    s.(inProgress := false, message := result.message, lastOutputPath := result.outputFile)
  }

  /** A failed conversion clears the last output path: the orchestrator
      reports no file on failure. */
  lemma FailureClearsOutput(s: UiState, cacheIn: Option<Converter.Staged>, cacheDir: string,
                            ffmpeg: string -> Converter.FfmpegResult,
                            media3: (Converter.Media3Call, string) -> Converter.Media3Result)
    ensures var run := Converter.Convert(cacheIn, cacheDir, s.outExt, ffmpeg, media3);
      !run.outcome.success ==> ConvertComplete(s, run.outcome).lastOutputPath.None?
    ensures var run := Converter.Convert(cacheIn, cacheDir, s.outExt, ffmpeg, media3);
      run.outcome.success ==> ConvertComplete(s, run.outcome).lastOutputPath.Some?
  {
  }
}

=== FILE: converter.dfy ===
/** The older orchestrator: convert a staged input to a requested extension,
    trying FFmpeg first and falling back to Media3 whenever FFmpeg does not
    succeed. Both engines are uninterpreted function parameters; the entry
    points it calls on them are not part of this model. */
module Converter {
  import opened Results
  import opened Strings
  import FileUtils

  /** What the caller sees. */
  datatype ConvertOutcome = ConvertOutcome(success: bool, outputFile: Option<string>, message: string)

  /** The input after it was copied into the cache: its absolute path and
      its file name. */
  datatype Staged = Staged(absolutePath: string, name: string)

  /** What the FFmpeg entry point reports. */
  datatype FfmpegResult = FfmpegResult(success: bool, returnCodeLabel: string, error: Option<string>)

  /** What a Media3 entry point reports. */
  datatype Media3Result = Media3Result(success: bool, error: Option<string>)

  /** The two Media3 entry points the fallback may call. */
  datatype Media3Call = TranscodeToMp4 | TranscodeAudioToAac

  /** One conversion: the caller's outcome, plus which engine calls were
      made (the FFmpeg command, if FFmpeg was invoked, and the Media3 entry
      point, if the fallback ran). */
  datatype Run = Run(outcome: ConvertOutcome, ffmpegCommand: Option<string>, media3: Option<Media3Call>)

  /** `File.nameWithoutExtension`: everything before the last '.', or the
      whole name when it has none. Unlike the base-name helper used
      elsewhere, a leading dot counts, so ".bin" becomes "". */
  function NameWithoutExtension(name: string): (r: string)
    ensures StartsWith(name, r)
    ensures r == name <==> '.' !in name
    ensures r != name ==> name[|r|] == '.' && '.' !in name[|r| + 1..]
  {
    var dot := LastIndexOf(name, '.');
    if dot < 0 then name else name[..dot]
  }

  /** Where the output goes: `<cacheDir>/convert/<input name without
      extension>.<outExt with every leading '.' trimmed>`. */
  function OutputPath(cacheDir: string, staged: Staged, outExt: string): (r: string)
    ensures StartsWith(r, cacheDir + "/convert/" + NameWithoutExtension(staged.name))
    ensures EndsWith(r, "." + TrimStart(outExt, '.'))
    ensures |r| == |cacheDir| + |"/convert/"| + |NameWithoutExtension(staged.name)| + 1 + |TrimStart(outExt, '.')|
  {
    var prefix := cacheDir + "/convert/" + NameWithoutExtension(staged.name);
    var suffix := "." + TrimStart(outExt, '.');
    assert (prefix + suffix)[..|prefix|] == prefix;
    assert (prefix + suffix)[|prefix + suffix| - |suffix|..] == suffix;
    prefix + suffix
  }

  function Quote(s: string): string {
    "\"" + s + "\""
  }

  /** The codec arguments for a lower-cased output extension: specific
      settings for m4a, mp3 and mp4, none otherwise. */
  function CodecArgs(extLower: string): (r: string)
    ensures r == "" || r[|r| - 1] == ' '
    ensures extLower !in {"m4a", "mp3", "mp4"} ==> r == ""
    ensures extLower in {"m4a", "mp3", "mp4"} ==> r != ""
  {
    match extLower
    case "m4a" => "-c:a aac -b:a 128k "
    case "mp3" => "-c:a libmp3lame -qscale:a 2 "
    case "mp4" => "-c:v libx264 -preset veryfast -crf 23 -c:a aac -b:a 128k "
    case _ => ""
  }

  /** The FFmpeg command for a lower-cased output extension: the codec
      arguments between the quoted input and the quoted output. */
  function Command(extLower: string, input: string, output: string): (r: string)
    ensures StartsWith(r, " -y -i " + Quote(input) + " ")
    ensures EndsWith(r, " " + Quote(output))
    ensures extLower !in {"m4a", "mp3", "mp4"} ==> r == " -y -i " + Quote(input) + " " + Quote(output)
  {
    var head := " -y -i " + Quote(input) + " ";
    var pre := head + CodecArgs(extLower);
    assert pre[|pre| - 1] == ' ';
    SpaceThenTail(pre, Quote(output));
    assert (pre + Quote(output))[..|head|] == head;
    pre + Quote(output)
  }

  lemma SpaceThenTail(p: string, t: string)
    requires |p| > 0 && p[|p| - 1] == ' '
    ensures EndsWith(p + t, " " + t)
  {
    assert p + t == p[..|p| - 1] + (" " + t);
  }

  /** The Media3 entry point used as fallback: audio-to-AAC for m4a, the MP4
      transcode for mp4 and, as a best effort, for everything else. */
  function FallbackFor(extLower: string): (r: Media3Call)
    ensures r == TranscodeAudioToAac <==> extLower == "m4a"
  {
    match extLower
    case "mp4" => TranscodeToMp4
    case "m4a" => TranscodeAudioToAac
    case _ => TranscodeToMp4
  }

  /** `convert(context, inUri, outExt)`. `cacheIn` is the staged input
      (absent when the copy into the cache failed), `ffmpeg` runs a command
      and `media3` runs an entry point writing to the given output path. */
  function Convert(cacheIn: Option<Staged>, cacheDir: string, outExt: string,
                   ffmpeg: string -> FfmpegResult,
                   media3: (Media3Call, string) -> Media3Result): (r: Run)
    ensures cacheIn.None? ==> r == Run(ConvertOutcome(false, None, "Failed to read input"), None, None)
    ensures cacheIn.Some? ==> r.ffmpegCommand.Some?
    ensures r.outcome.success ==> r.outcome.outputFile == Some(OutputPath(cacheDir, cacheIn.value, outExt))
    ensures !r.outcome.success ==> r.outcome.outputFile.None?
    ensures r.media3.Some? <==> cacheIn.Some? && !ffmpeg(r.ffmpegCommand.value).success
    ensures r.outcome.success <==> (cacheIn.Some? &&
      (ffmpeg(r.ffmpegCommand.value).success || media3(r.media3.value, OutputPath(cacheDir, cacheIn.value, outExt)).success))
    ensures cacheIn.Some? ==>
      var ff := ffmpeg(r.ffmpegCommand.value);
      (ff.success ==> r.outcome.message == "FFmpeg success: " + ff.returnCodeLabel) &&
      (!ff.success && r.outcome.success ==> r.outcome.message == "Media3 success") &&
      (!r.outcome.success ==>
        r.outcome.message == "FFmpeg unavailable (" + ff.error.GetOr("no AAR") + ") and Media3 failed (" +
          media3(r.media3.value, OutputPath(cacheDir, cacheIn.value, outExt)).error.GetOr("unknown") + ")")
  {
    match cacheIn
    case None => Run(ConvertOutcome(false, None, "Failed to read input"), None, None)
    case Some(staged) =>
      var outFile := OutputPath(cacheDir, staged, outExt);
      var extLower := Lower(outExt);
      var cmd := Command(extLower, staged.absolutePath, outFile);
      var ff := ffmpeg(cmd);
      if ff.success then
        Run(ConvertOutcome(true, Some(outFile), "FFmpeg success: " + ff.returnCodeLabel), Some(cmd), None)
      else
        var call := FallbackFor(extLower);
        var m3 := media3(call, outFile);
        if m3.success then
          Run(ConvertOutcome(true, Some(outFile), "Media3 success"), Some(cmd), Some(call))
        else
          Run(ConvertOutcome(false, None, "FFmpeg unavailable (" + ff.error.GetOr("no AAR") +
                                   ") and Media3 failed (" + m3.error.GetOr("unknown") + ")"), Some(cmd), Some(call))
  }

  /** The codec arguments and the fallback entry point are chosen by the
      lower-cased extension, so "MP4" and "mp4" pick the same codec
      arguments and the same fallback (the output path keeps the extension
      as given). */
  lemma ExtensionCaseIgnored(cacheIn: Option<Staged>, cacheDir: string, outExt: string,
                             ffmpeg: string -> FfmpegResult, media3: (Media3Call, string) -> Media3Result)
    requires cacheIn.Some?
    ensures var r := Convert(cacheIn, cacheDir, outExt, ffmpeg, media3);
      r.ffmpegCommand == Some(Command(Lower(outExt), cacheIn.value.absolutePath, OutputPath(cacheDir, cacheIn.value, outExt))) &&
      (r.media3.Some? ==> r.media3.value == FallbackFor(Lower(outExt)))
  {
    var staged := cacheIn.value;
    var cmd := Command(Lower(outExt), staged.absolutePath, OutputPath(cacheDir, staged, outExt));
    var r := Convert(cacheIn, cacheDir, outExt, ffmpeg, media3);
    if ffmpeg(cmd).success {
      assert r.ffmpegCommand == Some(cmd) && r.media3 == None;
    } else {
      assert r.ffmpegCommand == Some(cmd) && r.media3 == Some(FallbackFor(Lower(outExt)));
    }
  }

  /** The fallback runs on any FFmpeg failure, not only when FFmpeg is
      missing: an FFmpeg that ran and failed still hands over to Media3, and
      a Media3 success then reports success. */
  lemma FallbackOnAnyFailure(staged: Staged, cacheDir: string, outExt: string,
                             ffmpeg: string -> FfmpegResult, media3: (Media3Call, string) -> Media3Result)
    ensures var out := OutputPath(cacheDir, staged, outExt);
      !ffmpeg(Command(Lower(outExt), staged.absolutePath, out)).success &&
      media3(FallbackFor(Lower(outExt)), out).success ==>
        Convert(Some(staged), cacheDir, outExt, ffmpeg, media3).outcome == ConvertOutcome(true, Some(out), "Media3 success")
  {
  }

  /** The output file name agrees with the base-name helper except for
      names whose only dot is the leading one. */
  lemma NameWithoutExtensionVersusBaseName(name: string)
    ensures LastIndexOf(name, '.') != 0 ==> NameWithoutExtension(name) == FileUtils.BaseName(name)
    ensures LastIndexOf(name, '.') == 0 ==> NameWithoutExtension(name) == "" && FileUtils.BaseName(name) == name
  {
  }
}

=== FILE: ffmpeg_transcoder.dfy ===
/** FFmpeg command construction and the success check around each engine
    run. The engine itself is an oracle `run` that maps an argument list to
    the session it produced (absent when the session cannot be looked up). */
module FFmpegTranscoder {
  import opened Results
  import opened Strings

  /** One FFmpeg invocation as its argument tokens. The application writes
      each command as one space-separated string, which FFmpegKit splits on
      spaces; the tokens here are the pieces of that string. */
  type Command = seq<string>

  /** The transcoder's public operations. */
  datatype FfOp =
    | AudioToMp3 | AudioToAacM4a | AudioToM4b | AudioToAdtsAac
    | AudioToOpusWebm | AudioToOggVorbis | AudioToFlac | AudioToWav
    | VideoToMp4H264Aac | VideoToMp4H265Aac | VideoToWebmVp9Opus
    | VideoToMkvH264Aac | VideoToMovH264Aac | VideoToGif
    | ImageReencode(targetExt: string)
  {
    predicate IsAudio() {
      AudioToMp3? || AudioToAacM4a? || AudioToM4b? || AudioToAdtsAac? ||
      AudioToOpusWebm? || AudioToOggVorbis? || AudioToFlac? || AudioToWav?
    }

    predicate IsVideo() {
      VideoToMp4H264Aac? || VideoToMp4H265Aac? || VideoToWebmVp9Opus? ||
      VideoToMkvH264Aac? || VideoToMovH264Aac? || VideoToGif?
    }
  }

  /** A finished FFmpegKit session: its return code (absent while none was
      recorded) and its collected log text. */
  datatype Session = Session(returnCode: Option<int>, logs: Option<string>)

  /** `ReturnCode.SUCCESS`. */
  const SuccessCode := 0

  /** Turns a session into an outcome: success exactly when the session
      exists and its return code is present and is the success code;
      otherwise a failure quoting the code and the logs. */
  function AssertSuccess(session: Option<Session>): (r: Outcome<string>)
    ensures r.Pass? <==> session.Some? && session.value.returnCode == Some(SuccessCode)
    ensures r.Fail? ==> StartsWith(r.error, "FFmpeg failed (")
  {
    var rc := if session.Some? then session.value.returnCode else None;
    if rc.None? || rc.value != SuccessCode then
      var code := if rc.Some? then IntToString(rc.value) else "null";
      var log := if session.Some? then session.value.logs.GetOr("no ffmpeg logs") else "no ffmpeg logs";
      Fail("FFmpeg failed (" + code + "): " + log)
    else Pass
  }

  /** Codec arguments of the audio operations; every audio command also
      drops the video stream with "-vn". */
  function AudioCodecArgs(op: FfOp): seq<string>
    requires op.IsAudio()
  {
    match op
    case AudioToMp3 => ["-c:a", "libmp3lame", "-q:a", "2"]
    case AudioToAacM4a => ["-c:a", "aac", "-b:a", "192k"]
    case AudioToM4b => ["-c:a", "aac", "-b:a", "160k", "-f", "mp4"]
    case AudioToAdtsAac => ["-c:a", "aac", "-b:a", "192k"]
    case AudioToOpusWebm => ["-c:a", "libopus", "-b:a", "128k"]
    case AudioToOggVorbis => ["-c:a", "libvorbis", "-q:a", "5"]
    case AudioToFlac => ["-c:a", "flac"]
    case AudioToWav => ["-c:a", "pcm_s16le"]
  }

  /** The encoder settings shared by the MP4, MKV and MOV H.264 operations. */
  const H264Args: seq<string> :=
    ["-c:v", "libx264", "-pix_fmt", "yuv420p", "-crf", "21", "-preset", "veryfast", "-c:a", "aac", "-b:a", "192k"]

  /** Codec arguments of the single-step video operations. */
  function VideoCodecArgs(op: FfOp): seq<string>
    requires op.IsVideo() && !op.VideoToGif?
  {
    match op
    case VideoToMp4H264Aac => H264Args
    case VideoToMp4H265Aac =>
      ["-c:v", "libx265", "-pix_fmt", "yuv420p", "-crf", "26", "-preset", "medium", "-c:a", "aac", "-b:a", "160k"]
    case VideoToWebmVp9Opus =>
      ["-c:v", "libvpx-vp9", "-b:v", "0", "-crf", "32", "-row-mt", "1", "-c:a", "libopus", "-b:a", "128k"]
    case VideoToMkvH264Aac => H264Args
    case VideoToMovH264Aac => H264Args
  }

  /** Extra arguments of an image re-encode, chosen by the lower-cased target
      extension: JPEG forces RGB and quality 2, WebP quality 80, and every
      other extension re-encodes with FFmpeg's defaults. */
  function ImageExtraArgs(targetExt: string): (r: seq<string>)
    ensures Lower(targetExt) == "jpg" || Lower(targetExt) == "jpeg" ==> r == ["-vf", "format=rgb24", "-q:v", "2"]
    ensures Lower(targetExt) == "webp" ==> r == ["-qscale", "80"]
    ensures Lower(targetExt) !in {"jpg", "jpeg", "webp"} ==> r == []
  {
    match Lower(targetExt)
    case "jpg" => ["-vf", "format=rgb24", "-q:v", "2"]
    case "jpeg" => ["-vf", "format=rgb24", "-q:v", "2"]
    case "png" => []
    case "webp" => ["-qscale", "80"]
    case "bmp" => []
    case "tiff" => []
    case "tif" => []
    case "heic" => []
    case "heif" => []
    case _ => []
  }

  lemma ImageExtraArgsIgnoreCase(targetExt: string)
    ensures ImageExtraArgs(targetExt) == ImageExtraArgs(Lower(targetExt))
  {
    LowerIdempotent(targetExt);
  }

  const GifFilter := "fps=12,scale=iw:-1:flags=lanczos"

  /** What follows "-y -i <input>" in each command an operation runs. */
  function StepArgs(op: FfOp, out: string, palette: string): (r: seq<seq<string>>)
    ensures |r| == if op.VideoToGif? then 2 else 1
  {
    if op.VideoToGif? then [
      ["-vf", GifFilter + ",palettegen", palette],
      ["-i", palette, "-lavfi", GifFilter + "[x];[x][1:v]paletteuse", out]
    ]
    else if op.ImageReencode? then [ImageExtraArgs(op.targetExt) + [out]]
    else if op.IsAudio() then [["-vn"] + AudioCodecArgs(op) + [out]]
    else [VideoCodecArgs(op) + [out]]
  }

  /** The commands an operation runs, in order, for a staged input path, an
      output path and (for GIF only) a palette path. Every command starts
      with "-y -i <input>"; the last one writes the output path. GIF runs two
      commands: palette generation into the palette file, then a paletted
      encode that reads that palette. */
  function Commands(op: FfOp, input: string, out: string, palette: string): (r: seq<Command>)
    ensures |r| == if op.VideoToGif? then 2 else 1
    ensures forall k :: 0 <= k < |r| ==> |r[k]| >= 4 && r[k][..3] == ["-y", "-i", input]
    ensures r[|r| - 1][|r[|r| - 1]| - 1] == out
    ensures op.VideoToGif? ==> r[0][|r[0]| - 1] == palette && |r[1]| > 4 && r[1][3] == "-i" && r[1][4] == palette
    ensures op.IsAudio() ==> r[0][3] == "-vn"
  {
    var args := StepArgs(op, out, palette);
    seq(|args|, k requires 0 <= k < |args| => ["-y", "-i", input] + args[k])
  }

  /** The audiobook operation writes a ".m4b" file, an extension FFmpeg
      does not map to a muxer, so its command ends by forcing "-f mp4". */
  lemma M4bForcesMp4Muxer(input: string, out: string, palette: string)
    ensures var cmd := Commands(AudioToM4b, input, out, palette)[0];
      |cmd| == 11 && cmd[8] == "-f" && cmd[9] == "mp4" && cmd[10] == out
  {
    var args := ["-vn"] + AudioCodecArgs(AudioToM4b) + [out];
    assert StepArgs(AudioToM4b, out, palette) == [args];
    assert Commands(AudioToM4b, input, out, palette)[0] == ["-y", "-i", input] + args;
  }

  /** The MP4, MKV and MOV H.264 commands differ only in the output path. */
  lemma H264VariantsIdentical(input: string, out: string, palette: string)
    ensures Commands(VideoToMp4H264Aac, input, out, palette) == Commands(VideoToMkvH264Aac, input, out, palette)
    ensures Commands(VideoToMkvH264Aac, input, out, palette) == Commands(VideoToMovH264Aac, input, out, palette)
  {
  }

  /** Commands are built from fixed tables: the staged input path is the only
      token taken from the input, so the commands for another input are the
      same commands with that one token replaced. */
  lemma InputOnlyAtItsSlot(op: FfOp, in1: string, in2: string, out: string, palette: string)
    ensures var c1, c2 := Commands(op, in1, out, palette), Commands(op, in2, out, palette);
      |c1| == |c2| && forall k :: 0 <= k < |c1| ==> c2[k] == c1[k][2 := in2]
  {
  }

  /** Runs commands in order through the engine oracle, stopping at the first
      one whose session is not a success. Returns the commands actually run
      and the outcome. */
  function RunSteps(steps: seq<Command>, run: Command -> Option<Session>): (r: (seq<Command>, Outcome<string>))
    ensures |r.0| <= |steps| && r.0 == steps[..|r.0|]
    ensures forall k :: 0 <= k < |r.0| - 1 ==> AssertSuccess(run(r.0[k])).Pass?
    ensures r.1.Pass? <==> r.0 == steps && forall k :: 0 <= k < |steps| ==> AssertSuccess(run(steps[k])).Pass?
    ensures r.1.Fail? ==> |r.0| > 0 && r.1 == AssertSuccess(run(r.0[|r.0| - 1]))
  {
    if |steps| == 0 then ([], Pass)
    else
      match AssertSuccess(run(steps[0]))
      case Fail(e) => ([steps[0]], Fail(e))
      case Pass =>
        var rest := RunSteps(steps[1..], run);
        ([steps[0]] + rest.0, rest.1)
  }

  /** The record of one operation: the commands run, the outcome, and
      whether the GIF palette file was deleted. */
  datatype Exec = Exec(ran: seq<Command>, outcome: Outcome<string>, paletteDeleted: bool)

  /** One transcoder operation. Staging the input (a copy to a temp file)
      happens first; if it fails the engine is never invoked. The GIF
      palette is deleted only after both of its steps succeed. */
  function Execute(op: FfOp, staged: Result<string, string>, out: string, palette: string,
                   run: Command -> Option<Session>): (r: Exec)
    ensures staged.Failure? ==> r.ran == [] && r.outcome == Fail(staged.error)
    ensures staged.Success? ==>
      var cmds := Commands(op, staged.value, out, palette);
      |r.ran| <= |cmds| && r.ran == cmds[..|r.ran|] &&
      (r.outcome.Pass? <==> r.ran == cmds && forall k :: 0 <= k < |cmds| ==> AssertSuccess(run(cmds[k])).Pass?)
    ensures r.paletteDeleted <==> op.VideoToGif? && r.outcome.Pass?
  {
    match staged
    case Failure(e) => Exec([], Fail(e), false)
    case Success(input) =>
      var steps := RunSteps(Commands(op, input, out, palette), run);
      Exec(steps.0, steps.1, op.VideoToGif? && steps.1.Pass?)
  }

  /** GIF: when palette generation fails the paletted encode never runs, and
      whenever either step fails the palette file is left behind. */
  lemma GifStopsAtFailedStep(input: string, out: string, palette: string, run: Command -> Option<Session>)
    ensures var cmds := Commands(VideoToGif, input, out, palette);
      var r := Execute(VideoToGif, Success(input), out, palette, run);
      (AssertSuccess(run(cmds[0])).Fail? ==> r.ran == [cmds[0]] && r.outcome.Fail?) &&
      (r.outcome.Fail? ==> !r.paletteDeleted)
  {
  }
}

=== FILE: file_utils.dfy ===
/** Pure naming and classification helpers: stripping and replacing the
    final extension of a file name, the extension-to-MIME table, and the
    MIME-plus-name classifier that picks an input's category. */
module FileUtils {
  import opened Results
  import opened Strings
  import opened TargetFormats

  /** The name without its final extension. The last '.' starts the
      extension only when it is not the first character, so "archive.tar.gz"
      loses ".gz" while "noext" and ".hidden" come back whole. */
  function BaseName(name: string): (r: string)
    ensures StartsWith(name, r)
    ensures r == name <==> LastIndexOf(name, '.') <= 0
    ensures r != name ==> 0 < |r| && name[|r|] == '.' && '.' !in name[|r| + 1..]
  {
    var dot := LastIndexOf(name, '.');
    if dot > 0 then name[..dot] else name
  }

  /** `ext` with exactly one leading '.' dropped. */
  function SafeExt(ext: string): (r: string)
    ensures StartsWith(ext, ".") ==> ext == "." + r
    ensures !StartsWith(ext, ".") ==> r == ext
  {
    if StartsWith(ext, ".") then ext[1..] else ext
  }

  /** The name with its final extension replaced by `ext`. */
  function RenameWithExt(name: string, ext: string): (r: string)
    ensures StartsWith(r, BaseName(name))
    ensures EndsWith(r, "." + SafeExt(ext))
    ensures |r| == |BaseName(name)| + 1 + |SafeExt(ext)|
  {
    var b, e := BaseName(name), SafeExt(ext);
    var r := b + "." + e;
    assert r[..|b|] == b;
    assert r[|r| - |"." + e|..] == "." + e;
    r
  }

  /** Renaming keeps the base name: the renamed file's base name is the
      original's, provided the original name is non-empty and the new
      extension is a single segment. */
  lemma {:induction false} RenameKeepsBaseName(name: string, ext: string)
    requires name != ""
    requires '.' !in SafeExt(ext)
    ensures BaseName(RenameWithExt(name, ext)) == BaseName(name)
  {
    var b := BaseName(name);
    var r := RenameWithExt(name, ext);
    assert |b| > 0 by {
      if b == name {
      } else {
      }
    }
    assert r[|b|] == '.';
    assert r[|b| + 1..] == SafeExt(ext);
    LastIndexAt(r, '.', |b|);
  }

  /** Renaming twice with the same extension is renaming once. */
  lemma RenameIdempotent(name: string, ext: string)
    requires name != ""
    requires '.' !in SafeExt(ext)
    ensures RenameWithExt(RenameWithExt(name, ext), ext) == RenameWithExt(name, ext)
  {
    RenameKeepsBaseName(name, ext);
  }

  lemma BaseNameExamples()
    ensures BaseName("archive.tar.gz") == "archive.tar"
    ensures BaseName(".hidden") == ".hidden" && BaseName("noext") == "noext"
  {
    LastIndexAt("archive.tar.gz", '.', 11);
    LastIndexAt(".hidden", '.', 0);
    assert "archive.tar.gz"[..11] == "archive.tar";
    assert '.' !in "noext";
  }

  lemma RenameExamples()
    ensures RenameWithExt("song.wav", "mp3") == "song.mp3"
    ensures RenameWithExt("archive.tar.gz", ".zip") == "archive.tar.zip"
  {
    BaseNameExamples();
    LastIndexAt("song.wav", '.', 4);
    assert "song.wav"[..4] == "song";
    assert !StartsWith("mp3", ".") by { assert "mp3"[..1] != "."; }
    assert StartsWith(".zip", ".") by { assert ".zip"[..1] == "."; }
    assert SafeExt(".zip") == "zip" by { assert ".zip"[1..] == "zip"; }
    assert "song" + "." + "mp3" == "song.mp3";
    assert "archive.tar" + "." + "zip" == "archive.tar.zip";
  }

  lemma LastIndexAt(s: string, c: char, k: nat)
    requires k < |s| && s[k] == c
    requires forall j :: k < j < |s| ==> s[j] != c
    ensures LastIndexOf(s, c) == k
  {
  }

  const OctetStream := "application/octet-stream"

  /** The extension-to-MIME table, matched on the lower-cased extension;
      every extension outside the table maps to the generic octet stream. */
  function MimeForExt(ext: string): (r: string)
    ensures r == OctetStream <==> Lower(ext) !in MimeKeys
  {
    MimeOfLower(Lower(ext))
  }

  /** The table itself, keyed by an already lower-cased extension. */
  function MimeOfLower(key: string): string {
    match key
    case "jpg" => "image/jpeg"
    case "jpeg" => "image/jpeg"
    case "png" => "image/png"
    case "webp" => "image/webp"
    case "bmp" => "image/bmp"
    case "tif" => "image/tiff"
    case "tiff" => "image/tiff"
    case "heic" => "image/heic"
    case "heif" => "image/heic"
    case "pdf" => "application/pdf"
    case "zip" => "application/zip"
    case "mp4" => "video/mp4"
    case "webm" => "video/webm"
    case "mkv" => "video/x-matroska"
    case "mov" => "video/quicktime"
    case "gif" => "image/gif"
    case "mp3" => "audio/mpeg"
    case "m4a" => "audio/mp4"
    case "m4b" => "audio/mp4"
    case "aac" => "audio/aac"
    case "ogg" => "audio/ogg"
    case "opus" => "audio/ogg"
    case "flac" => "audio/flac"
    case "wav" => "audio/wav"
    case _ => OctetStream
  }

  /** The extensions the MIME table knows. */
  const MimeKeys: set<string> := {
    "jpg", "jpeg", "png", "webp", "bmp", "tif", "tiff", "heic", "heif", "pdf", "zip",
    "mp4", "webm", "mkv", "mov", "gif", "mp3", "m4a", "m4b", "aac", "ogg", "opus", "flac", "wav"
  }

  /** The table ignores case: "M4B" and "m4b" get the same MIME. */
  lemma MimeCaseInsensitive(ext: string)
    ensures MimeForExt(ext) == MimeForExt(Lower(ext))
  {
    LowerIdempotent(ext);
  }

  lemma DocumentMimes()
    ensures MimeForExt("pdf") == "application/pdf"
    ensures MimeForExt("zip") == "application/zip"
  {
    LowerIsLower("pdf");
    LowerIsLower("zip");
  }

  lemma MimeExamples()
    ensures MimeForExt("M4B") == "audio/mp4"
    ensures MimeForExt("Jpeg") == "image/jpeg"
    ensures MimeForExt("txt") == OctetStream
  {
    assert Lower("M4B") == "m4b";
    assert Lower("Jpeg") == "jpeg";
    assert Lower("txt") == "txt";
  }

  /** Every catalog target gets a specific MIME type, never the octet stream. */
  lemma CatalogExtensionsHaveMime(t: TargetFormat)
    ensures MimeForExt(Extension(t)) != OctetStream
  {
    LowerIsLower(Extension(t));
  }

  predicate HasMediaPrefix(lowerMime: string) {
    StartsWith(lowerMime, "audio/") || StartsWith(lowerMime, "video/") || StartsWith(lowerMime, "image/")
  }

  /** The audio file-name heuristic for providers that report a generic MIME
      type. */
  predicate HasAudioSuffix(lowerName: string) {
    EndsWith(lowerName, ".m4b") || EndsWith(lowerName, ".mp3") || EndsWith(lowerName, ".m4a")
    || EndsWith(lowerName, ".aac") || EndsWith(lowerName, ".flac") || EndsWith(lowerName, ".wav")
    || EndsWith(lowerName, ".ogg") || EndsWith(lowerName, ".opus")
  }

  /** The category of an input from its declared MIME type and (possibly
      missing) display name. MIME media prefixes are checked first, then PDF
      by MIME or name, then the audio file-name heuristic; IMAGE and VIDEO are
      reachable only through the MIME type. */
  function CategoryFor(mime: string, name: Option<string>): (r: Category)
    ensures r == Video <==> StartsWith(Lower(mime), "video/")
    ensures r == Image <==> StartsWith(Lower(mime), "image/")
    ensures r == Pdf <==> (!HasMediaPrefix(Lower(mime)) &&
      (Lower(mime) == "application/pdf" || EndsWith(Lower(name.GetOr("")), ".pdf")))
    ensures r == Audio <==> (StartsWith(Lower(mime), "audio/") ||
      (!HasMediaPrefix(Lower(mime)) && Lower(mime) != "application/pdf" &&
       !EndsWith(Lower(name.GetOr("")), ".pdf") && HasAudioSuffix(Lower(name.GetOr("")))))
  {
    var lower := Lower(mime);
    var nameLower := Lower(name.GetOr(""));
    if StartsWith(lower, "audio/") then Audio
    else if StartsWith(lower, "video/") then Video
    else if StartsWith(lower, "image/") then Image
    else if lower == "application/pdf" || EndsWith(nameLower, ".pdf") then Pdf
    else if HasAudioSuffix(nameLower) then Audio
    else Other
  }

  /** A media MIME prefix decides the category whatever the name says. */
  lemma MimePrefixIgnoresName(mime: string, a: Option<string>, b: Option<string>)
    requires HasMediaPrefix(Lower(mime))
    ensures CategoryFor(mime, a) == CategoryFor(mime, b)
  {
  }

  /** A missing name classifies like the empty name. */
  lemma MissingNameIsEmpty(mime: string)
    ensures CategoryFor(mime, None) == CategoryFor(mime, Some(""))
  {
  }

  /** Feeding a converted audio file back with a generic MIME type: every
      audio target's output is recognised as audio by its name, except the
      Opus target (below), whose ".webm" output is not on the audio name
      list and falls to OTHER. */
  lemma {:induction false} AudioOutputsReclassify(name: string, t: TargetFormat)
    requires t in OptionsFor(Audio) && t != Opus
    ensures CategoryFor(OctetStream, Some(RenameWithExt(name, Extension(t)))) == Audio
  {
    OfferedExactly(Audio, t);
    var e := Extension(t);
    var r := RenameWithExt(name, e);
    RenamedLowerSuffix(name, e);
    AudioExtensionListed(t, Lower(r));
    GenericMimeAudio(r);
  }

  /** The Opus target's output (extension "webm", shared with the VP9 video
      target) is not recognised as audio. */
  lemma {:induction false} WebmOutputIsOther(name: string)
    ensures CategoryFor(OctetStream, Some(RenameWithExt(name, "webm"))) == Other
  {
    assert IsLower("webm") && "webm"[0] != '.';
    assert "." + "webm" == ".webm";
    RenamedLowerSuffix(name, "webm");
    WebmNameIsOther(RenameWithExt(name, "webm"));
  }

  /** With the generic MIME type, any name ending in ".webm" is OTHER. */
  lemma WebmNameIsOther(n: string)
    requires EndsWith(Lower(n), ".webm")
    ensures CategoryFor(OctetStream, Some(n)) == Other
  {
    NoOtherSuffix(Lower(n), ".webm");
    GenericMimeOther(n);
  }

  lemma RenamedLowerSuffix(name: string, e: string)
    requires |e| > 0 && e[0] != '.' && IsLower(e)
    ensures EndsWith(Lower(RenameWithExt(name, e)), "." + e)
  {
    assert SafeExt(e) == e;
    LowerIsLower("." + e);
    LowerSuffix(RenameWithExt(name, e), "." + e);
  }

  lemma AudioExtensionListed(t: TargetFormat, s: string)
    requires HomeCategory(t) == Audio && t != Opus
    requires EndsWith(s, "." + Extension(t))
    ensures HasAudioSuffix(s) && !EndsWith(s, ".pdf")
  {
    var d := "." + Extension(t);
    match t
    case Mp3 => assert d == ".mp3"; SuffixClash(s, d, ".pdf");
    case M4aAac => assert d == ".m4a"; SuffixClash(s, d, ".pdf");
    case M4bAac => assert d == ".m4b"; SuffixClash(s, d, ".pdf");
    case AacAdts => assert d == ".aac"; SuffixClash(s, d, ".pdf");
    case OggVorbis => assert d == ".ogg"; SuffixClash(s, d, ".pdf");
    case Flac => assert d == ".flac"; SuffixClash(s, d, ".pdf");
    case Wav => assert d == ".wav"; SuffixClash(s, d, ".pdf");
  }

  /** With the generic MIME type only the name decides. */
  lemma GenericMimeAudio(n: string)
    requires !EndsWith(Lower(n), ".pdf") && HasAudioSuffix(Lower(n))
    ensures CategoryFor(OctetStream, Some(n)) == Audio
  {
    GenericMimeNotMedia();
  }

  lemma GenericMimeOther(n: string)
    requires !EndsWith(Lower(n), ".pdf") && !HasAudioSuffix(Lower(n))
    ensures CategoryFor(OctetStream, Some(n)) == Other
  {
    GenericMimeNotMedia();
  }

  lemma GenericMimeNotMedia()
    ensures Lower(OctetStream) == OctetStream
    ensures !HasMediaPrefix(OctetStream) && OctetStream != "application/pdf"
  {
    OctetStreamIsLower();
    assert OctetStream[0] == 'a' && OctetStream[1] == 'p';
    var p := OctetStream[..6];
    assert p[0] == OctetStream[0] && p[1] == OctetStream[1];
    assert p != "audio/" by { assert "audio/"[1] == 'u'; }
    assert p != "video/" by { assert "video/"[0] == 'v'; }
    assert p != "image/" by { assert "image/"[0] == 'i'; }
    assert |OctetStream| != |"application/pdf"|;
  }

  lemma OctetStreamIsLower()
    ensures Lower(OctetStream) == OctetStream
  {
    assert IsLower(OctetStream);
    LowerIsLower(OctetStream);
  }

  lemma LowerSuffix(s: string, suffix: string)
    requires EndsWith(s, suffix) && IsLower(suffix)
    ensures EndsWith(Lower(s), suffix)
  {
    assert Lower(s)[|s| - |suffix|..] == Lower(s[|s| - |suffix|..]);
    LowerIsLower(suffix);
  }

  /** Two suffixes of one string of the same length with different last
      characters cannot both hold. */
  lemma SuffixClash(s: string, a: string, b: string)
    requires EndsWith(s, a) && |a| > 0 && |b| > 0 && a[|a| - 1] != b[|b| - 1]
    ensures !EndsWith(s, b)
  {
    assert s[|s| - 1] == a[|a| - 1];
  }

  lemma NoOtherSuffix(s: string, w: string)
    requires w == ".webm" && EndsWith(s, w)
    ensures !EndsWith(s, ".pdf")
    ensures !HasAudioSuffix(s)
  {
    SuffixClash(s, w, ".pdf");
    SuffixClash(s, w, ".m4b");
    SuffixClash(s, w, ".mp3");
    SuffixClash(s, w, ".m4a");
    SuffixClash(s, w, ".aac");
    SuffixClash(s, w, ".flac");
    SuffixClash(s, w, ".wav");
    SuffixClash(s, w, ".ogg");
    SuffixClash(s, w, ".opus");
  }
}

=== FILE: main_activity.dfy ===
/** The one pure helper of the main screen: making sure a suggested file
    name ends with the target's extension before it is offered to the
    save dialog. */
module MainActivity {
  import opened Results
  import opened Strings
  import opened TargetFormats
  import opened ConversionManager

  /** `ext` with a leading '.' added unless it already has one. */
  function Dotted(ext: string): (r: string)
    ensures StartsWith(r, ".")
    ensures StartsWith(ext, ".") ==> r == ext
    ensures !StartsWith(ext, ".") ==> r == "." + ext
  {
    if StartsWith(ext, ".") then ext else "." + ext
  }

  /** `String.withSafeExtension(ext)`: the name unchanged when it already
      ends with the dotted extension, otherwise the name with it appended. */
  function WithSafeExtension(s: string, ext: string): (r: string)
    ensures EndsWith(r, Dotted(ext))
    ensures StartsWith(r, s)
    ensures r == s <==> EndsWith(s, Dotted(ext))
    ensures !EndsWith(s, Dotted(ext)) ==> r == s + Dotted(ext)
    ensures |r| <= |s| + |ext| + 1
  {
    var dot := Dotted(ext);
    if EndsWith(s, dot) then s
    else
      assert (s + dot)[|s + dot| - |dot|..] == dot;
      assert (s + dot)[..|s|] == s;
      s + dot
  }

  /** Applying the helper twice is applying it once. */
  lemma WithSafeExtensionIdempotent(s: string, ext: string)
    ensures WithSafeExtension(WithSafeExtension(s, ext), ext) == WithSafeExtension(s, ext)
  {
  }

  /** A converted file's suggested name already ends with the target's
      extension, so the helper offers it unchanged. */
  lemma ConvertedNamesNeedNoFix(c: Category, t: TargetFormat, name: string, providerMime: Option<string>,
                                perform: Operation -> Result<string, string>)
    ensures var r := Convert(c, t, name, providerMime, perform);
      r.Success? ==> WithSafeExtension(r.value.suggestedName, Extension(t)) == r.value.suggestedName
  {
    var r := Convert(c, t, name, providerMime, perform);
    if r.Success? {
      NameWithExtensionKept(r.value.suggestedName, t);
    }
  }

  lemma NameWithExtensionKept(n: string, t: TargetFormat)
    requires EndsWith(n, "." + Extension(t))
    ensures WithSafeExtension(n, Extension(t)) == n
  {
    assert !StartsWith(Extension(t), ".") by { assert Extension(t)[0] != '.'; }
  }
}

=== FILE: main_view_model.dfy ===
/** The main screen's state machine: choosing an input and a target,
    converting (a start event, then a success or failure event when the
    background work finishes), and exporting the converted file. The view
    model also owns the temp output file of the last successful conversion. */
module MainViewModel {
  import opened Results
  import opened TargetFormats
  import opened ConversionManager

  /** The screen state; the input is identified by its URI string. */
  datatype UiState = UiState(
    inputUri: Option<string>,
    inputName: string,
    category: Option<Category>,
    targetFormat: TargetFormat,
    isConverting: bool,
    message: string,
    readyToExport: bool,
    suggestedOutputName: string,
    suggestedMime: string
  )

  /** The UI state, the temp output file the view model holds, and the
      files it has deleted so far. */
  datatype ViewModel = ViewModel(ui: UiState, tempOutput: Option<string>, deleted: seq<string>)

  /** The conversion a start event launches in the background. */
  datatype Request = Request(uri: string, name: string, category: Category, target: TargetFormat)

  const ConvertingMessage := "Converting\U{2026}"
  const FinishedMessage := "Conversion finished. Click 'Save As\U{2026}' to export."
  const SavedMessage := "Saved successfully."

  /** Something is ready to export only while a temp output exists, and
      never while a conversion is marked as running. */
  predicate Consistent(vm: ViewModel) {
    (vm.ui.readyToExport ==> vm.tempOutput.Some?) &&
    (vm.ui.isConverting ==> !vm.ui.readyToExport)
  }

  function Initial(): (r: ViewModel)
    ensures r.ui.inputUri.None? && r.ui.inputName == "" && r.ui.category.None?
    ensures r.ui.targetFormat == DefaultFor(Other)
    ensures !r.ui.isConverting && !r.ui.readyToExport && r.tempOutput.None?
    ensures r.ui.message == "" && r.ui.suggestedOutputName == "" && r.ui.suggestedMime == ""
    ensures r.deleted == []
    ensures Consistent(r)
  {
    ViewModel(UiState(None, "", None, Jpg, false, "", false, "", ""), None, [])
  }

  /** Deletes the held temp output, if any. */
  function DropTemp(vm: ViewModel): (r: ViewModel)
    ensures r.tempOutput.None? && r.ui == vm.ui
    ensures vm.tempOutput.Some? ==> r.deleted == vm.deleted + [vm.tempOutput.value]
    ensures vm.tempOutput.None? ==> r.deleted == vm.deleted
  {
    match vm.tempOutput
    case Some(f) => ViewModel(vm.ui, None, vm.deleted + [f])
    case None => vm
  }

  /** `setInput`: a new input resets the target to the category's default,
      clears the message, withdraws any export and drops the previous temp
      output. */
  function SetInput(vm: ViewModel, uri: string, name: string, category: Category): (r: ViewModel)
    ensures r.ui == vm.ui.(inputUri := Some(uri), inputName := name, category := Some(category),
                           targetFormat := DefaultFor(category), message := "", readyToExport := false)
    ensures r.tempOutput.None? && r.deleted == DropTemp(vm).deleted
    ensures Consistent(vm) ==> Consistent(r)
  {
    var ui := vm.ui.(inputUri := Some(uri), inputName := name, category := Some(category),
                     targetFormat := DefaultFor(category), message := "", readyToExport := false);
    DropTemp(vm.(ui := ui))
  }

  /** `setTarget` changes only the target. */
  function SetTarget(vm: ViewModel, t: TargetFormat): (r: ViewModel)
    ensures r.ui == vm.ui.(targetFormat := t) && r.tempOutput == vm.tempOutput && r.deleted == vm.deleted
    ensures Consistent(vm) ==> Consistent(r)
  {
    vm.(ui := vm.ui.(targetFormat := t))
  }

  /** `convert`, up to the launch: without an input nothing changes and
      nothing is launched; otherwise the state shows a running conversion
      and the launched request carries the input, its category (OTHER when
      unknown) and the current target. */
  function ConvertStart(vm: ViewModel): (r: (ViewModel, Option<Request>))
    ensures vm.ui.inputUri.None? ==> r == (vm, None)
    ensures vm.ui.inputUri.Some? ==>
      r.1 == Some(Request(vm.ui.inputUri.value, vm.ui.inputName, vm.ui.category.GetOr(Other), vm.ui.targetFormat)) &&
      r.0.ui == vm.ui.(isConverting := true, message := ConvertingMessage, readyToExport := false) &&
      r.0.tempOutput == vm.tempOutput && r.0.deleted == vm.deleted
    ensures Consistent(vm) ==> Consistent(r.0)
  {
    match vm.ui.inputUri
    case None => (vm, None)
    case Some(uri) =>
      var req := Request(uri, vm.ui.inputName, vm.ui.category.GetOr(Other), vm.ui.targetFormat);
      (vm.(ui := vm.ui.(isConverting := true, message := ConvertingMessage, readyToExport := false)), Some(req))
  }

  /** The background conversion finished with a result: the previous temp
      output is deleted and replaced by the result's file, and the result's
      name and MIME are offered for export. */
  function ConvertSucceeded(vm: ViewModel, res: ConversionResult): (r: ViewModel)
    ensures r.ui == vm.ui.(isConverting := false, message := FinishedMessage, readyToExport := true,
                           suggestedOutputName := res.suggestedName, suggestedMime := res.suggestedMime)
    ensures r.tempOutput == Some(res.outputFile) && r.deleted == DropTemp(vm).deleted
    ensures Consistent(r)
  {
    var dropped := DropTemp(vm);
    dropped.(
      ui := vm.ui.(isConverting := false, message := FinishedMessage, readyToExport := true,
                   suggestedOutputName := res.suggestedName, suggestedMime := res.suggestedMime),
      tempOutput := Some(res.outputFile))
  }

  /** The background conversion threw: the message reports the exception's
      message (or its class name when it has none); nothing else but the
      running flag changes. */
  function ConvertFailed(vm: ViewModel, errorMessage: Option<string>, exceptionName: string): (r: ViewModel)
    ensures r.ui == vm.ui.(isConverting := false, message := "Error: " + errorMessage.GetOr(exceptionName))
    ensures r.tempOutput == vm.tempOutput && r.deleted == vm.deleted
    ensures Consistent(vm) ==> Consistent(r)
  {
    vm.(ui := vm.ui.(isConverting := false, message := "Error: " + errorMessage.GetOr(exceptionName)))
  }

  /** `exportToUri` once the copy has finished: without a temp output
      nothing happens; otherwise the export is withdrawn and the message
      reports the save. The temp output itself is kept. */
  function ExportToUri(vm: ViewModel): (r: ViewModel)
    ensures vm.tempOutput.None? ==> r == vm
    ensures vm.tempOutput.Some? ==>
      r.ui == vm.ui.(message := SavedMessage, readyToExport := false) && r.tempOutput == vm.tempOutput &&
      r.deleted == vm.deleted
    ensures Consistent(vm) ==> Consistent(r)
  {
    if vm.tempOutput.None? then vm
    else vm.(ui := vm.ui.(message := SavedMessage, readyToExport := false))
  }

  /** The happy path: pick an input, convert, succeed, export. The export
      becomes available exactly after the success and is withdrawn by the
      save; the suggested name is the conversion's. */
  lemma HappyPath(uri: string, name: string, c: Category, res: ConversionResult)
    ensures var s1 := SetInput(Initial(), uri, name, c);
      var (s2, req) := ConvertStart(s1);
      var s3 := ConvertSucceeded(s2, res);
      var s4 := ExportToUri(s3);
      req == Some(Request(uri, name, c, DefaultFor(c))) &&
      s2.ui.isConverting && !s2.ui.readyToExport &&
      s3.ui.readyToExport && s3.ui.suggestedOutputName == res.suggestedName &&
      !s4.ui.readyToExport && s4.ui.message == SavedMessage
  {
  }
}

=== FILE: results.dfy ===
/** Failure-carrying wrappers shared by every module of the model: Kotlin's
    nullable values become `Option`, thrown exceptions become the `Failure`
    of a `Result` (carrying the exception message), and an action that either
    completes or throws becomes an `Outcome`. */
module Results {

  datatype Option<+T> = None | Some(value: T) {
    /** Kotlin's elvis operator `x ?: default`. */
    function GetOr(default: T): T {
      match this
      case Some(v) => v
      case None => default
    }
  }

  datatype Result<+R, +E> = Success(value: R) | Failure(error: E)

  datatype Outcome<+E> = Pass | Fail(error: E)
}

=== FILE: simple_text_to_pdf.dfy ===
/** The layout decisions of the plain-text to PDF renderer: normalise line
    breaks, split into paragraphs, wrap each paragraph greedily against the
    content width, and break pages when the baseline passes the bottom
    margin. Text width and line height are abstract: `measure` gives the
    width of a string and `lineHeight` the vertical advance. */
module SimpleTextToPdf {
  import opened Results
  import opened Strings

  const PageWidth := 612
  const PageHeight := 792
  const Margin := 40
  const ContentWidth := PageWidth - Margin * 2
  /** A baseline below this ends the page. */
  const Bottom := PageHeight - Margin

  /** One drawn line: the page it belongs to, its baseline, its text and
      the index of the paragraph it was wrapped from. */
  datatype Line = Line(page: nat, y: int, text: string, para: nat)

  /** The pen: the page being filled, the current baseline, and the pages
      already finished, in order. */
  datatype Pen = Pen(page: nat, y: int, finished: seq<nat>)

  datatype Layout = Layout(lines: seq<Line>, pen: Pen)

  /** The finished document: every line drawn and every page finished. */
  datatype Document = Document(lines: seq<Line>, pages: seq<nat>)

  /** Pages are numbered consecutively from 1. */
  predicate Consecutive(pages: seq<nat>) {
    forall i :: 0 <= i < |pages| ==> pages[i] == i + 1
  }

  predicate PenValid(p: Pen) {
    p.page >= 1 && Margin <= p.y <= Bottom &&
    |p.finished| == p.page - 1 && Consecutive(p.finished)
  }

  /** `a` is drawn before `b` without overlapping it: on an earlier page, or
      on the same page at least one line height higher. */
  predicate Above(a: Line, b: Line, lineHeight: nat) {
    a.page < b.page || (a.page == b.page && a.y + lineHeight <= b.y)
  }

  /** The layout invariant: the pen is on the page within the margins, and
      every drawn line is within the margins, above the pen and above the
      line drawn after it. */
  predicate Valid(d: Layout, lineHeight: nat) {
    PenValid(d.pen) &&
    (forall i :: 0 <= i < |d.lines| ==>
      Margin <= d.lines[i].y <= Bottom && 1 <= d.lines[i].page &&
      Above(d.lines[i], Line(d.pen.page, d.pen.y, "", 0), lineHeight)) &&
    (forall i :: 0 <= i < |d.lines| - 1 ==> Above(d.lines[i], d.lines[i + 1], lineHeight))
  }

  /** Lines stacked one above the next are each above every later one. */
  lemma {:induction false} Stacked(lines: seq<Line>, lineHeight: nat)
    requires forall i :: 0 <= i < |lines| - 1 ==> Above(lines[i], lines[i + 1], lineHeight)
    ensures forall i, j :: 0 <= i < j < |lines| ==> Above(lines[i], lines[j], lineHeight)
  {
    if |lines| > 1 {
      var init := lines[..|lines| - 1];
      Stacked(init, lineHeight);
      forall i | 0 <= i < |lines| - 1
        ensures Above(lines[i], lines[|lines| - 1], lineHeight)
      {
        if i < |lines| - 2 {
          assert Above(init[i], init[|init| - 1], lineHeight);
        }
      }
    }
  }

  /** A line the loop may draw: it fits the content width or is a single
      word (a word wider than the page is drawn alone rather than split),
      and each of its prefixes the loop tried on the way, the first word
      followed by further words, fitted too. */
  predicate Fits(t: string, measure: string -> nat) {
    (measure(t) <= ContentWidth || ' ' !in t) &&
    forall e {:trigger PrefixFits(t, e, measure)} :: 0 <= e < |t| ==> PrefixFits(t, e, measure)
  }

  /** The prefix of `t` that ends at position `e`, when it ends before a
      space and holds one itself, fits the content width. */
  predicate PrefixFits(t: string, e: int, measure: string -> nat) {
    0 <= e < |t| && t[e] == ' ' && ' ' in t[..e] ==> measure(t[..e]) <= ContentWidth
  }

  /** A line is never drawn past a prefix that did not fit: when "a b" is
      too wide, "a b c" cannot be a line even if it measures narrower, since
      the loop would have broken after "a". */
  lemma WiderPrefixBreaks(measure: string -> nat)
    requires measure("a b") > ContentWidth
    ensures !Fits("a b c", measure)
  {
    assert "a b c"[3] == ' ' && "a b c"[..3] == "a b" && "a b"[1] == ' ';
    assert !PrefixFits("a b c", 3, measure);
  }

  /** Every drawn line fits as `Fits` says. */
  predicate Greedy(lines: seq<Line>, measure: string -> nat) {
    forall i :: 0 <= i < |lines| ==> Fits(lines[i].text, measure)
  }

  /** No drawn line spans an input line break. */
  predicate NoBreaks(lines: seq<Line>) {
    forall i :: 0 <= i < |lines| ==> '\n' !in lines[i].text && '\r' !in lines[i].text
  }

  /** Lines appear paragraph by paragraph. */
  predicate Ordered(lines: seq<Line>) {
    forall i, j :: 0 <= i < j < |lines| ==> lines[i].para <= lines[j].para
  }

  /** `line` extended by `w`: after one space, or `w` alone on an empty line. */
  function Joined(line: string, w: string): string {
    if line == "" then w else line + " " + w
  }

  /** Line `a` was ended because the next word did not fit after it. That
      word starts line `b`, unless it was an empty word (two spaces in a
      row), which is lost when it starts a line. */
  predicate Broke(a: string, b: string, measure: string -> nat) {
    measure(Joined(a, Split(b, ' ')[0])) > ContentWidth || measure(Joined(a, "")) > ContentWidth
  }

  /** Greedy maximality: a line is never followed, within its paragraph, by
      a line whose first word would have fitted on it. */
  predicate Maximal(lines: seq<Line>, measure: string -> nat) {
    forall k :: 0 <= k < |lines| - 1 && lines[k].para == lines[k + 1].para ==>
      Broke(lines[k].text, lines[k + 1].text, measure)
  }

  /** Everything the layout loop keeps true of what it has drawn. */
  predicate Drawn(d: Layout, lineHeight: nat, measure: string -> nat) {
    Valid(d, lineHeight) && Greedy(d.lines, measure) && NoBreaks(d.lines) &&
    Ordered(d.lines) && Maximal(d.lines, measure)
  }

  /** The non-empty strings of `ws`, in order. */
  function NonEmpty(ws: seq<string>): (r: seq<string>)
    ensures forall k :: 0 <= k < |r| ==> r[k] != ""
  {
    if |ws| == 0 then []
    else NonEmpty(ws[..|ws| - 1]) + (if ws[|ws| - 1] == "" then [] else [ws[|ws| - 1]])
  }

  /** The words a line shows. */
  function LineWords(s: string): seq<string> {
    NonEmpty(Split(s, ' '))
  }

  /** The words shown by the lines of paragraph `p`, in drawing order. */
  function WordsOf(lines: seq<Line>, p: nat): seq<string> {
    if |lines| == 0 then []
    else
      var last := lines[|lines| - 1];
      WordsOf(lines[..|lines| - 1], p) + (if last.para == p then LineWords(last.text) else [])
  }

  /** The paragraphs of a text: carriage returns dropped, split at line feeds. */
  function Paragraphs(text: string): seq<string> {
    Split(Remove(text, '\r'), '\n')
  }

  /** Where a pen stands: its page and its baseline. */
  datatype Spot = Spot(page: nat, y: int)

  function Where(p: Pen): Spot {
    Spot(p.page, p.y)
  }

  /** The top of the first page, where the pen starts. */
  const Top := Spot(1, Margin)

  /** One line advance on the page and baseline alone: the next baseline,
      or the top of the next page when it would pass the bottom margin. */
  function Down(s: Spot, lineHeight: nat): Spot {
    if s.y + lineHeight > Bottom then Spot(s.page + 1, Margin) else Spot(s.page, s.y + lineHeight)
  }

  /** The spot `n` line advances below `s`. */
  function Downs(s: Spot, n: nat, lineHeight: nat): Spot {
    if n == 0 then s else Down(Downs(s, n - 1, lineHeight), lineHeight)
  }

  /** Advancing `a` lines and then `b` lines is advancing `a + b` lines. */
  lemma {:induction false} DownsAdd(s: Spot, a: nat, b: nat, lineHeight: nat)
    ensures Downs(Downs(s, a, lineHeight), b, lineHeight) == Downs(s, a + b, lineHeight)
  {
    if b > 0 {
      DownsAdd(s, a, b - 1, lineHeight);
    }
  }

  /** Line `l` was drawn at spot `s`. */
  predicate At(l: Line, s: Spot) {
    l.page == s.page && l.y == s.y
  }

  /** Moves the baseline down one line; when it passes the bottom margin
      the page is finished and the next one starts at the top margin. */
  function Advance(p: Pen, lineHeight: nat): (r: Pen)
    requires PenValid(p)
    ensures PenValid(r)
    ensures r.page == p.page + 1 <==> p.y + lineHeight > Bottom
    ensures r.page == p.page ==> r.y == p.y + lineHeight && r.finished == p.finished
    ensures r.page == p.page + 1 ==> r.y == Margin && r.finished == p.finished + [p.page]
    ensures Where(r) == Down(Where(p), lineHeight)
  {
    var y := p.y + lineHeight;
    if y > Bottom then Pen(p.page + 1, Margin, p.finished + [p.page])
    else Pen(p.page, y, p.finished)
  }

  /** Draws `text` at the pen and advances. */
  function Emit(d: Layout, text: string, para: nat, lineHeight: nat): (r: Layout)
    requires Valid(d, lineHeight)
    ensures Valid(r, lineHeight)
    ensures r.lines == d.lines + [Line(d.pen.page, d.pen.y, text, para)]
    ensures r.pen == Advance(d.pen, lineHeight)
  {
    var r := Layout(d.lines + [Line(d.pen.page, d.pen.y, text, para)], Advance(d.pen, lineHeight));
    assert forall i :: 0 <= i < |d.lines| ==> r.lines[i] == d.lines[i];
    r
  }

  /** An empty paragraph draws nothing and advances one line. */
  function Skip(d: Layout, lineHeight: nat): (r: Layout)
    requires Valid(d, lineHeight)
    ensures Valid(r, lineHeight)
    ensures r.lines == d.lines
    ensures r.pen == Advance(d.pen, lineHeight)
    ensures r.pen.page == d.pen.page ==> r.pen.y == d.pen.y + lineHeight
  {
    Layout(d.lines, Advance(d.pen, lineHeight))
  }

  /** The number of empty strings among the first `n` of `ps`. */
  function Blanks(ps: seq<string>, n: nat): nat
    requires n <= |ps|
  {
    if n == 0 then 0 else Blanks(ps, n - 1) + (if |ps[n - 1]| == 0 then 1 else 0)
  }

  /** The lines `d` draws after those of `d0` follow one another one line
      advance apart, starting at `d0`'s pen, and the pen has advanced
      exactly once per such line. */
  ghost predicate Trail(d0: Layout, d: Layout, lineHeight: nat) {
    |d.lines| >= |d0.lines| &&
    Where(d.pen) == Downs(Where(d0.pen), |d.lines| - |d0.lines|, lineHeight) &&
    forall k :: |d0.lines| <= k < |d.lines| ==> At(d.lines[k], Downs(Where(d0.pen), k - |d0.lines|, lineHeight))
  }

  /** Drawing one more line continues the trail. */
  lemma TrailEmit(d0: Layout, d: Layout, text: string, para: nat, lineHeight: nat)
    requires Valid(d, lineHeight) && Trail(d0, d, lineHeight)
    ensures Trail(d0, Emit(d, text, para, lineHeight), lineHeight)
  {
    var e := Emit(d, text, para, lineHeight);
    forall k | |d0.lines| <= k < |e.lines|
      ensures At(e.lines[k], Downs(Where(d0.pen), k - |d0.lines|, lineHeight))
    {
      if k < |d.lines| {
        assert e.lines[k] == d.lines[k];
      }
    }
  }

  /** The effect of one word on the line being built. */
  datatype Wrap = Wrap(emitted: Option<string>, line: string)

  /** Greedy wrap: the word joins the current line (after one space, or
      alone when the line is empty) iff the result fits the content width;
      otherwise the current line is emitted and the word starts the next. */
  function WrapStep(line: string, word: string, measure: string -> nat): (r: Wrap)
    ensures var test := Joined(line, word);
      (r.emitted.None? <==> measure(test) <= ContentWidth) &&
      (r.emitted.None? ==> r.line == test) &&
      (r.emitted.Some? ==> r.emitted.value == line && r.line == word)
  {
    var test := Joined(line, word);
    if measure(test) > ContentWidth then Wrap(Some(line), word) else Wrap(None, test)
  }

  /** An overlong word at the start of a paragraph first emits an empty
      line: the renderer draws "" and moves down before placing the word. */
  lemma OverlongFirstWordEmitsEmptyLine(word: string, measure: string -> nat)
    requires measure(word) > ContentWidth
    ensures WrapStep("", word, measure) == Wrap(Some(""), word)
  {
  }

  /** `renderText`: lay out `text` and finish the last page. Every line lies
      between the margins on a numbered page, lines on one page never
      overlap, and the pages are 1, 2, ... with at least one. The lines of
      each paragraph show exactly that paragraph's words in order, each line
      fits or is a single word, and no line could have taken the next
      line's first word. */
  method RenderText(text: string, measure: string -> nat, lineHeight: nat) returns (doc: Document)
    ensures |doc.pages| >= 1 && Consecutive(doc.pages)
    ensures forall i :: 0 <= i < |doc.lines| ==>
      Margin <= doc.lines[i].y <= Bottom && 1 <= doc.lines[i].page <= |doc.pages|
    ensures forall i, j :: 0 <= i < j < |doc.lines| ==> Above(doc.lines[i], doc.lines[j], lineHeight)
    ensures forall i :: 0 <= i < |doc.lines| ==> doc.lines[i].para < |Paragraphs(text)|
    ensures forall p :: (0 <= p < |Paragraphs(text)| ==>
      WordsOf(doc.lines, p) == NonEmpty(Split(Paragraphs(text)[p], ' ')))
    ensures Ordered(doc.lines)
    ensures Greedy(doc.lines, measure)
    ensures Maximal(doc.lines, measure)
    ensures NoBreaks(doc.lines)
    ensures LinesPlaced(doc.lines, Paragraphs(text), lineHeight)
    ensures PagesPlaced(doc, Paragraphs(text), lineHeight)
  {
    var d := RenderFrom(text, Layout([], Pen(1, Margin, [])), 0, measure, lineHeight);
    Stacked(d.lines, lineHeight);
    doc := Document(d.lines, d.pen.finished + [d.pen.page]);
    PlacedAll(text, d, doc, lineHeight);
  }

  /** The loop over paragraphs, from paragraph `i` on. */
  method RenderFrom(text: string, d: Layout, i: nat, measure: string -> nat, lineHeight: nat)
    returns (d': Layout)
    requires Rendered(d, Paragraphs(text), i, lineHeight, measure)
    ensures Rendered(d', Paragraphs(text), |Paragraphs(text)|, lineHeight, measure)
    decreases |Paragraphs(text)| - i
  {
    var paragraphs := Paragraphs(text);
    if i == |paragraphs| {
      return d;
    }
    ParagraphHasNoBreaks(text, i);
    var d1 := RenderParagraph(d, paragraphs[i], i, measure, lineHeight);
    RenderedStep(d, d1, paragraphs, i, lineHeight, measure);
    d' := RenderFrom(text, d1, i + 1, measure, lineHeight);
  }

  /** The layout after the first `i` paragraphs (the invariant of the loop
      over paragraphs): it is drawn, its lines belong to those paragraphs
      and show their words, and every line is where `Placed` puts it. */
  ghost predicate Rendered(d: Layout, paragraphs: seq<string>, i: nat, lineHeight: nat, measure: string -> nat) {
    i <= |paragraphs| && Drawn(d, lineHeight, measure) &&
    (forall k :: 0 <= k < |d.lines| ==> d.lines[k].para < i) &&
    (forall p {:trigger WordsOf(d.lines, p)} :: 0 <= p < i ==> WordsOf(d.lines, p) == NonEmpty(Split(paragraphs[p], ' '))) &&
    Placed(d, paragraphs, i, lineHeight)
  }

  /** Rendering paragraph `i` extends the invariant to `i + 1` paragraphs. */
  lemma RenderedStep(d0: Layout, d: Layout, paragraphs: seq<string>, i: nat, lineHeight: nat,
                     measure: string -> nat)
    requires i < |paragraphs| && Rendered(d0, paragraphs, i, lineHeight, measure)
    requires Extends(d0, d, i, lineHeight, measure)
    requires WordsOf(d.lines, i) == NonEmpty(Split(paragraphs[i], ' '))
    requires paragraphs[i] == "" ==> d == Skip(d0, lineHeight)
    requires paragraphs[i] != "" ==> Trail(d0, d, lineHeight)
    ensures Rendered(d, paragraphs, i + 1, lineHeight, measure)
  {
    ExtendsUpTo(d0, d, i, lineHeight, measure);
    PlacedStep(d0, d, paragraphs, i, lineHeight);
  }

  /** The layout after the first `i` paragraphs: the pen has advanced once
      per line drawn and once per empty paragraph, and every line is where
      `LinesPlaced` puts it. */
  ghost predicate Placed(d: Layout, paragraphs: seq<string>, i: nat, lineHeight: nat) {
    i <= |paragraphs| &&
    Where(d.pen) == Downs(Top, |d.lines| + Blanks(paragraphs, i), lineHeight) &&
    LinesPlaced(d.lines, paragraphs, lineHeight)
  }

  /** Line `k`, if there is one, belongs to a paragraph of `paragraphs` and
      was drawn after `k` line advances from the top of the first page plus
      one advance for each empty paragraph before its own. */
  ghost predicate PlacedLine(lines: seq<Line>, k: int, paragraphs: seq<string>, lineHeight: nat) {
    0 <= k < |lines| ==>
      lines[k].para < |paragraphs| &&
      At(lines[k], Downs(Top, k + Blanks(paragraphs, lines[k].para), lineHeight))
  }

  /** Every line is where `PlacedLine` puts it. */
  ghost predicate LinesPlaced(lines: seq<Line>, paragraphs: seq<string>, lineHeight: nat) {
    forall k {:trigger PlacedLine(lines, k, paragraphs, lineHeight)} :: PlacedLine(lines, k, paragraphs, lineHeight)
  }

  /** The document ends on the page reached after one advance per line and
      one per empty paragraph. */
  ghost predicate PagesPlaced(doc: Document, paragraphs: seq<string>, lineHeight: nat) {
    |doc.pages| == Downs(Top, |doc.lines| + Blanks(paragraphs, |paragraphs|), lineHeight).page
  }

  /** Once every paragraph is rendered, the document's lines are placed and
      it ends on the pen's page. */
  lemma PlacedAll(text: string, d: Layout, doc: Document, lineHeight: nat)
    requires Placed(d, Paragraphs(text), |Paragraphs(text)|, lineHeight)
    requires PenValid(d.pen) && doc == Document(d.lines, d.pen.finished + [d.pen.page])
    ensures LinesPlaced(doc.lines, Paragraphs(text), lineHeight)
    ensures PagesPlaced(doc, Paragraphs(text), lineHeight)
  {
  }

  /** Rendering paragraph `i` keeps every line placed and the pen where
      `Placed` puts it. */
  lemma PlacedStep(d0: Layout, d: Layout, paragraphs: seq<string>, i: nat, lineHeight: nat)
    requires i < |paragraphs|
    requires Placed(d0, paragraphs, i, lineHeight)
    requires |d.lines| >= |d0.lines| && d.lines[..|d0.lines|] == d0.lines
    requires forall k :: |d0.lines| <= k < |d.lines| ==> d.lines[k].para == i
    requires paragraphs[i] == "" ==> d.lines == d0.lines && Where(d.pen) == Down(Where(d0.pen), lineHeight)
    requires paragraphs[i] != "" ==> Trail(d0, d, lineHeight)
    ensures Placed(d, paragraphs, i + 1, lineHeight)
  {
    var n0 := |d0.lines|;
    var b := Blanks(paragraphs, i);
    if paragraphs[i] == "" {
      assert Blanks(paragraphs, i + 1) == b + 1;
      assert Where(d.pen) == Downs(Top, n0 + b + 1, lineHeight);
    } else {
      assert Blanks(paragraphs, i + 1) == b;
      DownsAdd(Top, n0 + b, |d.lines| - n0, lineHeight);
      assert n0 + b + (|d.lines| - n0) == |d.lines| + Blanks(paragraphs, i + 1);
    }
    forall k
      ensures PlacedLine(d.lines, k, paragraphs, lineHeight)
    {
      if 0 <= k < n0 {
        assert PlacedLine(d0.lines, k, paragraphs, lineHeight);
        assert d.lines[k] == d.lines[..n0][k];
      } else if n0 <= k < |d.lines| {
        DownsAdd(Top, n0 + b, k - n0, lineHeight);
        assert d.lines[k].para == i;
        assert n0 + b + (k - n0) == k + Blanks(paragraphs, d.lines[k].para);
      }
    }
  }

  /** One paragraph (the body of the loop over paragraphs): an empty one only
      moves the pen down a line; otherwise its words are wrapped greedily
      and every finished line is drawn, the last one too if it is not empty.
      The new lines carry the paragraph's index and show its words. */
  method RenderParagraph(d0: Layout, para: string, index: nat, measure: string -> nat, lineHeight: nat)
    returns (d: Layout)
    requires Drawn(d0, lineHeight, measure)
    requires '\n' !in para && '\r' !in para
    requires forall k :: 0 <= k < |d0.lines| ==> d0.lines[k].para < index
    ensures Extends(d0, d, index, lineHeight, measure)
    ensures WordsOf(d.lines, index) == NonEmpty(Split(para, ' '))
    ensures para == "" ==> d == Skip(d0, lineHeight)
    ensures para != "" ==> Trail(d0, d, lineHeight)
  {
    if para == "" {
      d := Skip(d0, lineHeight);
      SkipExtends(d0, index, lineHeight, measure);
      return;
    }
    var words := Split(para, ' ');
    WordsAreClean(para);
    var line;
    ghost var carry, broke;
    d, line, carry, broke := WrapWords(d0, words, index, measure, lineHeight);
    if line != "" {
      Breaks(d, d0, line, carry, broke, index, measure);
      ExtendsEmit(d0, d, line, index, lineHeight, measure);
      TrailEmit(d0, d, line, index, lineHeight);
      d := Emit(d, line, index, lineHeight);
    } else {
      LineWordsJoined("", "");
    }
  }

  /** `d` is `d0` with lines of paragraph `index` drawn after it: every
      layout invariant holds, the lines of `d0` are kept, and the words of
      the other paragraphs are unchanged. */
  ghost predicate Extends(d0: Layout, d: Layout, index: nat, lineHeight: nat, measure: string -> nat) {
    Drawn(d, lineHeight, measure) &&
    (forall k :: 0 <= k < |d0.lines| ==> d0.lines[k].para < index) &&
    |d.lines| >= |d0.lines| && d.lines[..|d0.lines|] == d0.lines &&
    (forall k :: |d0.lines| <= k < |d.lines| ==> d.lines[k].para == index) &&
    (forall p :: p != index ==> WordsOf(d.lines, p) == WordsOf(d0.lines, p))
  }

  /** After paragraph `index` no line belongs to a later paragraph. */
  lemma ExtendsUpTo(d0: Layout, d: Layout, index: nat, lineHeight: nat, measure: string -> nat)
    requires Extends(d0, d, index, lineHeight, measure)
    ensures forall k :: 0 <= k < |d.lines| ==> d.lines[k].para <= index
  {
    forall k | 0 <= k < |d.lines|
      ensures d.lines[k].para <= index
    {
      if k < |d0.lines| {
        assert d.lines[k] == d0.lines[k];
      }
    }
  }

  /** The word loop: each word joins the current line if the line still fits
      with it, otherwise the line is drawn and the word starts the next one.
      The line left over at the end is returned undrawn. */
  method WrapWords(d0: Layout, words: seq<string>, index: nat, measure: string -> nat, lineHeight: nat)
    returns (d: Layout, line: string, ghost carry: string, ghost broke: bool)
    requires Drawn(d0, lineHeight, measure)
    requires forall k :: 0 <= k < |words| ==> Clean(words[k])
    requires forall k :: 0 <= k < |d0.lines| ==> d0.lines[k].para < index
    ensures Extends(d0, d, index, lineHeight, measure)
    ensures Wrapping(d0, d, words, |words|, line, carry, broke, index, measure)
    ensures WordsOf(d.lines, index) + LineWords(line) == NonEmpty(words)
    ensures Trail(d0, d, lineHeight)
  {
    WordsOfAbsent(d0.lines, index);
    assert NonEmpty([""]) == [] && words[..0] == [];
    assert d0.lines[..|d0.lines|] == d0.lines;
    d, line, carry, broke := WrapFrom(d0, d0, words, 0, "", "", false, index, measure, lineHeight);
    assert words[..|words|] == words;
  }

  /** The word loop from word `j` on. */
  method WrapFrom(d0: Layout, d: Layout, words: seq<string>, j: nat, line: string, ghost carry: string,
                  ghost broke: bool, index: nat, measure: string -> nat, lineHeight: nat)
    returns (d': Layout, line': string, ghost carry': string, ghost broke': bool)
    requires forall k :: 0 <= k < |words| ==> Clean(words[k])
    requires Extends(d0, d, index, lineHeight, measure)
    requires Wrapping(d0, d, words, j, line, carry, broke, index, measure)
    requires Trail(d0, d, lineHeight)
    ensures Extends(d0, d', index, lineHeight, measure)
    ensures Wrapping(d0, d', words, |words|, line', carry', broke', index, measure)
    ensures Trail(d0, d', lineHeight)
    decreases |words| - j
  {
    if j == |words| {
      return d, line, carry, broke;
    }
    var d1, line1, carry1, broke1 := WrapOne(d0, d, words, j, line, carry, broke, index, measure, lineHeight);
    if |d1.lines| == |d.lines| {
      assert d1 == d;
    } else {
      TrailEmit(d0, d, line, index, lineHeight);
    }
    d', line', carry', broke' := WrapFrom(d0, d1, words, j + 1, line1, carry1, broke1, index, measure, lineHeight);
  }

  /** One turn of the word loop: word `j` joins the line or, when the line
      would no longer fit, the line is drawn and the word starts a new one. */
  method WrapOne(d0: Layout, d: Layout, words: seq<string>, j: nat, line: string, ghost carry: string,
                 ghost broke: bool, index: nat, measure: string -> nat, lineHeight: nat)
    returns (d': Layout, line': string, ghost carry': string, ghost broke': bool)
    requires j < |words| && Clean(words[j])
    requires Extends(d0, d, index, lineHeight, measure)
    requires Wrapping(d0, d, words, j, line, carry, broke, index, measure)
    ensures Extends(d0, d', index, lineHeight, measure)
    ensures Wrapping(d0, d', words, j + 1, line', carry', broke', index, measure)
    ensures |d'.lines| == |d.lines| + 1 <==> measure(Joined(line, words[j])) > ContentWidth
    ensures |d'.lines| == |d.lines| + 1 ==> d'.lines[|d.lines|].text == line && line' == words[j]
    ensures |d'.lines| == |d.lines| ==> line' == Joined(line, words[j])
    ensures |d'.lines| == |d.lines| || |d'.lines| == |d.lines| + 1
    ensures |d'.lines| == |d.lines| ==> d' == d
    ensures |d'.lines| == |d.lines| + 1 ==> d' == Emit(d, line, index, lineHeight)
  {
    var step := WrapStep(line, words[j], measure);
    if step.emitted.Some? {
      BreakStep(d0, d, words, j, line, carry, broke, index, lineHeight, measure);
      d', line', carry', broke' := Emit(d, step.emitted.value, index, lineHeight), step.line, words[j], true;
    } else {
      FitStep(d0, d, words, j, line, carry, broke, index, measure);
      d', line', carry', broke' := d, step.line, carry, broke;
    }
  }

  /** A word of a paragraph: no space and no line break. */
  predicate Clean(w: string) {
    ' ' !in w && '\n' !in w && '\r' !in w
  }

  lemma WordsAreClean(para: string)
    requires '\n' !in para && '\r' !in para
    ensures forall k :: 0 <= k < |Split(para, ' ')| ==> Clean(Split(para, ' ')[k])
  {
    forall k | 0 <= k < |Split(para, ' ')|
      ensures Clean(Split(para, ' ')[k])
    {
      SplitKeepsChars(para, ' ', k);
    }
  }

  /** The state of the word loop after `j` words: `line` is the line being
      built, `carry` the word that broke the previous line of this paragraph
      (when `broke`), and `d0` the layout before the paragraph. */
  ghost predicate Wrapping(d0: Layout, d: Layout, words: seq<string>, j: nat, line: string, carry: string,
                           broke: bool, index: nat, measure: string -> nat) {
    j <= |words| &&
    WordsOf(d.lines, index) + LineWords(line) == NonEmpty(words[..j]) &&
    Fits(line, measure) &&
    '\n' !in line && '\r' !in line && ' ' !in carry &&
    (carry != "" ==> line == carry || StartsWith(line, carry + " ")) &&
    (broke ==> (|d.lines| > |d0.lines| && measure(Joined(d.lines[|d.lines| - 1].text, carry)) > ContentWidth)) &&
    (!broke ==> |d.lines| == |d0.lines|)
  }

  /** The next word fits: it joins the line. */
  lemma FitStep(d0: Layout, d: Layout, words: seq<string>, j: nat, line: string, carry: string,
                broke: bool, index: nat, measure: string -> nat)
    requires Wrapping(d0, d, words, j, line, carry, broke, index, measure)
    requires j < |words| && Clean(words[j]) && measure(Joined(line, words[j])) <= ContentWidth
    ensures Wrapping(d0, d, words, j + 1, Joined(line, words[j]), carry, broke, index, measure)
  {
    var word := words[j];
    LineWordsJoined(line, word);
    NonEmptyNext(words, j);
    MoreWords(WordsOf(d.lines, index), LineWords(line), NonEmpty([word]), NonEmpty(words[..j]));
    JoinedKeepsClean(line, word);
    JoinedFits(line, word, measure);
    if carry != "" {
      JoinedKeepsStart(line, word, carry);
    }
  }

  /** The next word does not fit: the line is drawn and the word starts the
      next one. */
  lemma BreakStep(d0: Layout, d: Layout, words: seq<string>, j: nat, line: string, carry: string,
                  broke: bool, index: nat, lineHeight: nat, measure: string -> nat)
    requires Extends(d0, d, index, lineHeight, measure)
    requires Wrapping(d0, d, words, j, line, carry, broke, index, measure)
    requires j < |words| && Clean(words[j]) && measure(Joined(line, words[j])) > ContentWidth
    ensures Extends(d0, Emit(d, line, index, lineHeight), index, lineHeight, measure)
    ensures Wrapping(d0, Emit(d, line, index, lineHeight), words, j + 1, words[j], words[j], true,
                     index, measure)
  {
    var word := words[j];
    LineWordsJoined("", word);
    NonEmptyNext(words, j);
    Breaks(d, d0, line, carry, broke, index, measure);
    ExtendsEmit(d0, d, line, index, lineHeight, measure);
  }

  /** The line about to be drawn may follow the last drawn line of its
      paragraph: the word that broke that line starts this one. */
  lemma Breaks(d: Layout, d0: Layout, line: string, carry: string, broke: bool, index: nat,
               measure: string -> nat)
    requires |d.lines| >= |d0.lines|
    requires forall k :: 0 <= k < |d0.lines| ==> d0.lines[k].para < index
    requires d.lines[..|d0.lines|] == d0.lines
    requires ' ' !in carry
    requires carry != "" ==> line == carry || StartsWith(line, carry + " ")
    requires broke ==> (|d.lines| > |d0.lines| &&
      measure(Joined(d.lines[|d.lines| - 1].text, carry)) > ContentWidth)
    requires !broke ==> |d.lines| == |d0.lines|
    ensures |d.lines| > 0 && d.lines[|d.lines| - 1].para == index ==>
      Broke(d.lines[|d.lines| - 1].text, line, measure)
  {
    if broke && carry != "" {
      FirstPiece(line, carry);
    }
    if !broke && |d.lines| > 0 {
      assert d.lines[|d.lines| - 1] == d0.lines[|d0.lines| - 1];
    }
  }

  /** An empty paragraph extends the layout by no line. */
  lemma SkipExtends(d0: Layout, index: nat, lineHeight: nat, measure: string -> nat)
    requires Drawn(d0, lineHeight, measure)
    requires forall k :: 0 <= k < |d0.lines| ==> d0.lines[k].para < index
    ensures Extends(d0, Skip(d0, lineHeight), index, lineHeight, measure)
    ensures WordsOf(Skip(d0, lineHeight).lines, index) == NonEmpty(Split("", ' '))
  {
    WordsOfAbsent(d0.lines, index);
    assert NonEmpty([""]) == [];
    assert d0.lines[..|d0.lines|] == d0.lines;
  }

  /** Drawing one more line of paragraph `index` keeps the layout extending
      `d0` and adds the line's words to that paragraph's words. */
  lemma ExtendsEmit(d0: Layout, d: Layout, text: string, index: nat, lineHeight: nat, measure: string -> nat)
    requires Extends(d0, d, index, lineHeight, measure)
    requires Fits(text, measure)
    requires '\n' !in text && '\r' !in text
    requires |d.lines| > 0 && d.lines[|d.lines| - 1].para == index ==>
      Broke(d.lines[|d.lines| - 1].text, text, measure)
    ensures Extends(d0, Emit(d, text, index, lineHeight), index, lineHeight, measure)
    ensures WordsOf(Emit(d, text, index, lineHeight).lines, index) == WordsOf(d.lines, index) + LineWords(text)
  {
    EmitKeeps(d0.lines, d, text, index, lineHeight);
    ExtendsUpTo(d0, d, index, lineHeight, measure);
    DrawLine(d, text, index, lineHeight, measure);
  }

  /** Drawing a line of paragraph `index` keeps the lines before it. */
  lemma EmitKeeps(kept: seq<Line>, d: Layout, text: string, index: nat, lineHeight: nat)
    requires Valid(d, lineHeight)
    requires |d.lines| >= |kept| && d.lines[..|kept|] == kept
    requires forall k :: |kept| <= k < |d.lines| ==> d.lines[k].para == index
    ensures var e := Emit(d, text, index, lineHeight);
      e.lines[..|kept|] == kept && forall k :: |kept| <= k < |e.lines| ==> e.lines[k].para == index
  {
    var e := Emit(d, text, index, lineHeight);
    assert e.lines[..|kept|] == d.lines[..|kept|];
    forall k | |kept| <= k < |e.lines|
      ensures e.lines[k].para == index
    {
      if k < |d.lines| {
        assert e.lines[k] == d.lines[k];
      } else {
        assert e.lines[k] == Line(d.pen.page, d.pen.y, text, index);
      }
    }
  }

  /** Drawing one more line of paragraph `para` keeps the layout invariant
      and adds the line's words to that paragraph's words. */
  lemma DrawLine(d: Layout, text: string, para: nat, lineHeight: nat, measure: string -> nat)
    requires Drawn(d, lineHeight, measure)
    requires Fits(text, measure)
    requires '\n' !in text && '\r' !in text
    requires forall k :: 0 <= k < |d.lines| ==> d.lines[k].para <= para
    requires |d.lines| > 0 && d.lines[|d.lines| - 1].para == para ==>
      Broke(d.lines[|d.lines| - 1].text, text, measure)
    ensures Drawn(Emit(d, text, para, lineHeight), lineHeight, measure)
    ensures forall p :: (WordsOf(Emit(d, text, para, lineHeight).lines, p) ==
      WordsOf(d.lines, p) + (if p == para then LineWords(text) else []))
  {
    var l := Line(d.pen.page, d.pen.y, text, para);
    AppendLine(d.lines, l, measure);
    WordsOfSnoc(d.lines, l);
  }

  lemma AppendLine(ls: seq<Line>, l: Line, measure: string -> nat)
    requires Greedy(ls, measure) && NoBreaks(ls) && Ordered(ls) && Maximal(ls, measure)
    requires Fits(l.text, measure)
    requires '\n' !in l.text && '\r' !in l.text
    requires forall k :: 0 <= k < |ls| ==> ls[k].para <= l.para
    requires |ls| > 0 && ls[|ls| - 1].para == l.para ==> Broke(ls[|ls| - 1].text, l.text, measure)
    ensures var r := ls + [l];
      Greedy(r, measure) && NoBreaks(r) && Ordered(r) && Maximal(r, measure)
  {
    var r := ls + [l];
    assert forall k :: 0 <= k < |ls| ==> r[k] == ls[k];
  }

  lemma WordsOfSnoc(ls: seq<Line>, l: Line)
    ensures forall p :: (WordsOf(ls + [l], p) ==
      WordsOf(ls, p) + (if p == l.para then LineWords(l.text) else []))
  {
    assert (ls + [l])[..|ls|] == ls;
  }

  /** Lines drawn for other paragraphs contribute nothing to paragraph `p`. */
  lemma {:induction false} WordsOfAbsent(lines: seq<Line>, p: nat)
    requires forall k :: 0 <= k < |lines| ==> lines[k].para != p
    ensures WordsOf(lines, p) == []
  {
    if |lines| > 0 {
      WordsOfAbsent(lines[..|lines| - 1], p);
    }
  }

  lemma NonEmptyNext(ws: seq<string>, j: nat)
    requires j < |ws|
    ensures NonEmpty(ws[..j + 1]) == NonEmpty(ws[..j]) + NonEmpty([ws[j]])
  {
    assert ws[..j + 1] == ws[..j] + [ws[j]];
    NonEmptySnoc(ws[..j], ws[j]);
  }

  lemma NonEmptySnoc(ws: seq<string>, w: string)
    ensures NonEmpty(ws + [w]) == NonEmpty(ws) + NonEmpty([w])
  {
    assert (ws + [w])[..|ws|] == ws;
    assert [w][..0] == [];
  }

  /** Extending a line by a word adds exactly that word to what it shows. */
  lemma LineWordsJoined(line: string, word: string)
    requires ' ' !in word
    ensures LineWords(Joined(line, word)) == LineWords(line) + NonEmpty([word])
    ensures LineWords(word) == NonEmpty([word]) && LineWords("") == []
  {
    assert NonEmpty([""]) == [];
    SplitNoSep(word, ' ');
    if line == "" {
      assert NonEmpty([""]) == [];
    } else {
      SplitAround(line, word, ' ');
      assert line + " " + word == line + [' '] + word;
      NonEmptySnoc(Split(line, ' '), word);
    }
  }

  lemma MoreWords(shown: seq<string>, pending: seq<string>, added: seq<string>, all: seq<string>)
    requires shown + pending == all
    ensures shown + (pending + added) == all + added
  {
  }

  /** A word that joins the line because the result fits keeps the line
      one the loop may draw: the new prefix it tried is the old line. */
  lemma JoinedFits(line: string, word: string, measure: string -> nat)
    requires Fits(line, measure) && ' ' !in word
    requires measure(Joined(line, word)) <= ContentWidth
    ensures Fits(Joined(line, word), measure)
  {
    if line != "" {
      var t := line + " " + word;
      forall e
        ensures PrefixFits(t, e, measure)
      {
        if 0 <= e < |line| {
          assert PrefixFits(line, e, measure);
          assert t[..e] == line[..e];
        } else if e == |line| {
          assert t[..e] == line;
        }
      }
    }
  }

  lemma JoinedKeepsClean(line: string, word: string)
    requires '\n' !in line && '\r' !in line && Clean(word)
    ensures '\n' !in Joined(line, word) && '\r' !in Joined(line, word)
  {
  }

  /** A line that starts with `carry` keeps starting with it as words are
      added. */
  lemma JoinedKeepsStart(line: string, word: string, carry: string)
    requires carry != "" && (line == carry || StartsWith(line, carry + " "))
    ensures StartsWith(Joined(line, word), carry + " ")
  {
    var j := line + " " + word;
    assert j[..|carry| + 1] == (line + " ")[..|carry| + 1];
  }

  /** The first word of a line that starts with the word `carry`. */
  lemma FirstPiece(line: string, carry: string)
    requires ' ' !in carry
    requires line == carry || StartsWith(line, carry + " ")
    ensures Split(line, ' ')[0] == carry
  {
    SplitNoSep(carry, ' ');
    if line != carry {
      var rest := line[|carry| + 1..];
      assert line == carry + [' '] + rest;
      SplitAround(carry, rest, ' ');
    }
  }

  lemma ParagraphHasNoBreaks(text: string, p: nat)
    requires p < |Paragraphs(text)|
    ensures '\n' !in Paragraphs(text)[p] && '\r' !in Paragraphs(text)[p]
  {
    SplitKeepsChars(Remove(text, '\r'), '\n', p);
  }

  /** A piece of a split holds only characters of the original string. */
  lemma {:induction false} SplitKeepsChars(s: string, sep: char, k: nat)
    requires k < |Split(s, sep)|
    ensures forall ch :: ch in Split(s, sep)[k] ==> ch in s
  {
    if |s| == 0 {
    } else {
      var rest := Split(s[1..], sep);
      if s[0] == sep {
        if k > 0 {
          SplitKeepsChars(s[1..], sep, k - 1);
        }
      } else if k == 0 {
        SplitKeepsChars(s[1..], sep, 0);
      } else {
        SplitKeepsChars(s[1..], sep, k);
      }
    }
  }
}

=== FILE: strings.dfy ===
/** The handful of Kotlin string operations the converter relies on, over
    `string` (`seq<char>`). */
module Strings {

  /** `Char.lowercaseChar()` restricted to ASCII letters. */
  function LowerChar(c: char): (r: char)
    ensures 'A' <= c <= 'Z' ==> r != c && 'a' <= r <= 'z'
    ensures !('A' <= c <= 'Z') ==> r == c
  {
    if 'A' <= c <= 'Z' then (c as int + 32) as char else c
  }

  /** `String.lowercase()`: every character mapped through `LowerChar`. */
  function Lower(s: string): (r: string)
    ensures |r| == |s|
    ensures forall i :: 0 <= i < |s| ==> r[i] == LowerChar(s[i])
  {
    seq(|s|, i requires 0 <= i < |s| => LowerChar(s[i]))
  }

  predicate IsLower(s: string) {
    forall i :: 0 <= i < |s| ==> !('A' <= s[i] <= 'Z')
  }

  lemma LowerIsLower(s: string)
    ensures IsLower(Lower(s))
    ensures IsLower(s) ==> Lower(s) == s
  {
  }

  lemma LowerIdempotent(s: string)
    ensures Lower(Lower(s)) == Lower(s)
  {
    LowerIsLower(s);
    LowerIsLower(Lower(s));
  }

  predicate StartsWith(s: string, prefix: string) {
    |prefix| <= |s| && s[..|prefix|] == prefix
  }

  predicate EndsWith(s: string, suffix: string) {
    |suffix| <= |s| && s[|s| - |suffix|..] == suffix
  }

  /** `String.lastIndexOf(c)`: the index of the last occurrence of `c`, or -1. */
  function LastIndexOf(s: string, c: char): (r: int)
    ensures -1 <= r < |s|
    ensures 0 <= r ==> s[r] == c
    ensures forall j :: r < j < |s| ==> s[j] != c
    ensures r == -1 <==> c !in s
  {
    if |s| == 0 then -1
    else if s[|s| - 1] == c then |s| - 1
    else LastIndexOf(s[..|s| - 1], c)
  }

  /** `String.split(sep)` for a single-character separator: the pieces
      between separators, empty pieces included, so there is always one more
      piece than there are separators. */
  function Split(s: string, sep: char): (r: seq<string>)
    ensures |r| >= 1
    ensures forall k :: 0 <= k < |r| ==> sep !in r[k]
  {
    if |s| == 0 then [""]
    else
      var rest := Split(s[1..], sep);
      if s[0] == sep then [""] + rest
      else [[s[0]] + rest[0]] + rest[1..]
  }

  /** `joinToString(sep)`: the inverse of `Split`. */
  function Join(pieces: seq<string>, sep: char): string
    requires |pieces| >= 1
  {
    if |pieces| == 1 then pieces[0]
    else pieces[0] + [sep] + Join(pieces[1..], sep)
  }

  lemma {:induction false} SplitJoin(s: string, sep: char)
    ensures Join(Split(s, sep), sep) == s
  {
    if |s| > 0 {
      var rest := Split(s[1..], sep);
      SplitJoin(s[1..], sep);
      assert s == [s[0]] + s[1..];
      if s[0] == sep {
        assert Split(s, sep) == [""] + rest;
        JoinEmptyFirst(rest, sep);
      } else {
        assert Split(s, sep) == [[s[0]] + rest[0]] + rest[1..];
        JoinConsFirst(s[0], rest, sep);
      }
    }
  }

  /** An empty first piece contributes only its separator. */
  lemma JoinEmptyFirst(pieces: seq<string>, sep: char)
    requires |pieces| >= 1
    ensures Join([""] + pieces, sep) == [sep] + Join(pieces, sep)
  {
    assert ([""] + pieces)[1..] == pieces;
  }

  /** A character prepended to the first piece is prepended to the join. */
  lemma JoinConsFirst(c: char, pieces: seq<string>, sep: char)
    requires |pieces| >= 1
    ensures Join([[c] + pieces[0]] + pieces[1..], sep) == [c] + Join(pieces, sep)
  {
    var r := [[c] + pieces[0]] + pieces[1..];
    assert r[0] == [c] + pieces[0];
    if |pieces| > 1 {
      assert r[1..] == pieces[1..];
      var tail := [sep] + Join(pieces[1..], sep);
      assert Join(r, sep) == [c] + pieces[0] + tail;
      assert Join(pieces, sep) == pieces[0] + tail;
      ConsAssoc(c, pieces[0], tail);
    }
  }

  /** A string without the separator is one piece. */
  lemma {:induction false} SplitNoSep(w: string, sep: char)
    requires sep !in w
    ensures Split(w, sep) == [w]
  {
    if |w| > 0 {
      SplitNoSep(w[1..], sep);
      assert [w[0]] + w[1..] == w;
    }
  }

  /** Splitting at a separator between two strings splits each of them. */
  lemma {:induction false} SplitAround(a: string, b: string, sep: char)
    ensures Split(a + [sep] + b, sep) == Split(a, sep) + Split(b, sep)
  {
    var s := a + [sep] + b;
    var rb := Split(b, sep);
    if |a| == 0 {
      assert s == [sep] + b;
      assert s[1..] == b;
    } else {
      assert s[0] == a[0];
      assert s[1..] == a[1..] + [sep] + b;
      SplitAround(a[1..], b, sep);
      var ra := Split(a[1..], sep);
      var rest := Split(s[1..], sep);
      assert rest == ra + rb;
      if a[0] == sep {
        assert Split(s, sep) == [""] + rest;
        assert Split(a, sep) == [""] + ra;
        SeqAssoc([""], ra, rb);
      } else {
        var first := [a[0]] + ra[0];
        assert rest[0] == ra[0];
        assert rest[1..] == ra[1..] + rb;
        assert Split(s, sep) == [first] + rest[1..];
        assert Split(a, sep) == [first] + ra[1..];
        SeqAssoc([first], ra[1..], rb);
      }
    }
  }

  lemma ConsAssoc<T>(a: T, x: seq<T>, y: seq<T>)
    ensures [a] + x + y == [a] + (x + y)
  {
  }

  lemma SeqAssoc<T>(x: seq<T>, y: seq<T>, z: seq<T>)
    ensures x + (y + z) == (x + y) + z
  {
  }

  /** `String.replace("<c>", "")`: every occurrence of `c` deleted, the rest
      kept in order. */
  function Remove(s: string, c: char): (r: string)
    ensures c !in r
    ensures |r| <= |s|
    ensures c !in s ==> r == s
  {
    if |s| == 0 then ""
    else if s[0] == c then Remove(s[1..], c)
    else [s[0]] + Remove(s[1..], c)
  }

  /** `String.trimStart(c)`: every leading `c` removed. */
  function TrimStart(s: string, c: char): (r: string)
    ensures EndsWith(s, r)
    ensures |r| > 0 ==> r[0] != c
    ensures forall i :: 0 <= i < |s| - |r| ==> s[i] == c
  {
    if |s| > 0 && s[0] == c then TrimStart(s[1..], c) else s
  }

  /** Decimal rendering of an integer, as Kotlin string templates print it. */
  function IntToString(n: int): (r: string)
    ensures |r| >= 1
  {
    if n < 0 then "-" + NatToString(-n) else NatToString(n)
  }

  function NatToString(n: nat): (r: string)
    ensures |r| >= 1
    ensures forall i :: 0 <= i < |r| ==> '0' <= r[i] <= '9'
  {
    if n < 10 then [Digit(n)] else NatToString(n / 10) + [Digit(n % 10)]
  }

  function Digit(d: nat): (r: char)
    requires d < 10
    ensures '0' <= r <= '9'
  {
    "0123456789"[d]
  }
}

=== FILE: target_formats.dfy ===
/** The closed format catalog: input categories, conversion targets with
    their display names and file extensions, and the ordered option list
    offered for each category. */
module TargetFormats {
  import opened Strings

  datatype Category = Audio | Video | Image | Pdf | Other

  /** Every conversion target. `ImagePdf` is the image-to-PDF target (named
      plain `PDF` in the application), renamed so that it does not clash with
      the `Pdf` category. */
  datatype TargetFormat =
    // audio
    | Mp3 | M4aAac | M4bAac | AacAdts | Opus | OggVorbis | Flac | Wav
    // video
    | Mp4H264Aac | Mp4H265Aac | WebmVp9Opus | MkvH264Aac | MovH264Aac | GifAnimated
    // images
    | Jpg | Png | Webp | Bmp | Tiff | Heic | ImagePdf
    // documents
    | ZipImages | TxtPdf | HtmlPdf

  function Label(c: Category): string {
    match c
    case Audio => "Audio"
    case Video => "Video"
    case Image => "Image"
    case Pdf => "PDF"
    case Other => "Other"
  }

  function DisplayName(t: TargetFormat): string {
    match t
    case Mp3 => "mp3 (LAME)"
    case M4aAac => "m4a (AAC)"
    case M4bAac => "m4b (Audiobook/AAC)"
    case AacAdts => "aac (ADTS)"
    case Opus => "opus (WebM/Opus)"
    case OggVorbis => "ogg (Vorbis)"
    case Flac => "flac (lossless)"
    case Wav => "wav (PCM 16-bit)"
    case Mp4H264Aac => "mp4 (H.264/AAC)"
    case Mp4H265Aac => "mp4 (H.265/AAC)"
    case WebmVp9Opus => "webm (VP9/Opus)"
    case MkvH264Aac => "mkv (H.264/AAC)"
    case MovH264Aac => "mov (H.264/AAC)"
    case GifAnimated => "gif (animated)"
    case Jpg => "jpg (JPEG)"
    case Png => "png (PNG)"
    case Webp => "webp (WebP)"
    case Bmp => "bmp (Bitmap)"
    case Tiff => "tiff (TIFF)"
    case Heic => "heic (HEIF)"
    case ImagePdf => "pdf (PDF)"
    case ZipImages => "images.zip (PDF pages \U{2192} PNG)"
    case TxtPdf => "pdf (from .txt)"
    case HtmlPdf => "pdf (from .html/markdown)"
  }

  /** The category labels name the categories apart. */
  lemma LabelsDistinct(c: Category, d: Category)
    ensures Label(c) == Label(d) <==> c == d
  {
  }

  /** No two targets share a display name, so the entry chosen in the
      target menu identifies the target (several share an extension). */
  lemma DisplayNamesDistinct(t: TargetFormat, u: TargetFormat)
    ensures DisplayName(t) == DisplayName(u) <==> t == u
  {
  }

  /** The file extension a target's output carries: non-empty, lower-case and
      without a leading dot. */
  function Extension(t: TargetFormat): (r: string)
    ensures |r| > 0 && IsLower(r) && r[0] != '.'
  {
    match t
    case Mp3 => "mp3"
    case M4aAac => "m4a"
    case M4bAac => "m4b"
    case AacAdts => "aac"
    case Opus => "webm"
    case OggVorbis => "ogg"
    case Flac => "flac"
    case Wav => "wav"
    case Mp4H264Aac => "mp4"
    case Mp4H265Aac => "mp4"
    case WebmVp9Opus => "webm"
    case MkvH264Aac => "mkv"
    case MovH264Aac => "mov"
    case GifAnimated => "gif"
    case Jpg => "jpg"
    case Png => "png"
    case Webp => "webp"
    case Bmp => "bmp"
    case Tiff => "tiff"
    case Heic => "heic"
    case ImagePdf => "pdf"
    case ZipImages => "zip"
    case TxtPdf => "pdf"
    case HtmlPdf => "pdf"
  }

  /** The target preselected for a category. The application writes this as
      its own table (with `Other` falling to the `else` branch); it agrees
      with the head of the option list. */
  function DefaultFor(c: Category): (r: TargetFormat)
    ensures r == OptionsFor(c)[0]
  {
    match c
    case Audio => Mp3
    case Video => Mp4H264Aac
    case Image => Jpg
    case Pdf => ZipImages
    case _ => Jpg
  }

  const ImageOptions: seq<TargetFormat> := [Jpg, Png, Webp, Bmp, Tiff, Heic, ImagePdf]

  /** The targets offered for a category, in display order. */
  function OptionsFor(c: Category): (r: seq<TargetFormat>)
    ensures |r| > 0
    ensures Distinct(r)
    ensures c == Image ==> r == ImageOptions
    ensures c == Other ==> r == ImageOptions + [TxtPdf, HtmlPdf]
  {
    match c
    case Audio => [Mp3, M4aAac, M4bAac, AacAdts, Opus, OggVorbis, Flac, Wav]
    case Video => [Mp4H264Aac, Mp4H265Aac, WebmVp9Opus, MkvH264Aac, MovH264Aac, GifAnimated]
    case Image => ImageOptions
    case Pdf => [ZipImages]
    case Other => [Jpg, Png, Webp, Bmp, Tiff, Heic, ImagePdf, TxtPdf, HtmlPdf]
  }

  predicate Distinct<T(==)>(s: seq<T>) {
    forall i, j :: 0 <= i < j < |s| ==> s[i] != s[j]
  }

  lemma OptionCounts()
    ensures |OptionsFor(Audio)| == 8
    ensures |OptionsFor(Video)| == 6
    ensures |OptionsFor(Image)| == 7
    ensures |OptionsFor(Pdf)| == 1
    ensures |OptionsFor(Other)| == 9
  {
  }

  /** The category whose converter handles a target natively. */
  function HomeCategory(t: TargetFormat): Category {
    match t
    case Mp3 | M4aAac | M4bAac | AacAdts | Opus | OggVorbis | Flac | Wav => Audio
    case Mp4H264Aac | Mp4H265Aac | WebmVp9Opus | MkvH264Aac | MovH264Aac | GifAnimated => Video
    case Jpg | Png | Webp | Bmp | Tiff | Heic | ImagePdf => Image
    case ZipImages => Pdf
    case TxtPdf | HtmlPdf => Other
  }

  /** Which categories offer a target: its home category, and `Other` for
      every image target as well. So every target is offered somewhere, and
      only the image targets are offered twice. */
  lemma {:induction false} OfferedExactly(c: Category, t: TargetFormat)
    ensures t in OptionsFor(c) <==> c == HomeCategory(t) || (c == Other && HomeCategory(t) == Image)
  {
    if t in OptionsFor(c) {
      var i :| 0 <= i < |OptionsFor(c)| && OptionsFor(c)[i] == t;
      OptionsStayHome(c, i);
    }
    if c == HomeCategory(t) || (c == Other && HomeCategory(t) == Image) {
      OfferedAtHome(t);
      if c == Other && HomeCategory(t) == Image {
        assert OptionsFor(Other) == ImageOptions + [TxtPdf, HtmlPdf];
        assert t in ImageOptions;
      }
    }
  }

  lemma OptionsStayHome(c: Category, i: int)
    requires 0 <= i < |OptionsFor(c)|
    ensures HomeCategory(OptionsFor(c)[i]) == c || (c == Other && HomeCategory(OptionsFor(c)[i]) == Image)
  {
    match c
    case Audio =>
    case Video =>
    case Image =>
    case Pdf =>
    case Other =>
  }

  lemma OfferedAtHome(t: TargetFormat)
    ensures t in OptionsFor(HomeCategory(t))
  {
    match t
    case Mp3 => assert OptionsFor(Audio)[0] == t;
    case M4aAac => assert OptionsFor(Audio)[1] == t;
    case M4bAac => assert OptionsFor(Audio)[2] == t;
    case AacAdts => assert OptionsFor(Audio)[3] == t;
    case Opus => assert OptionsFor(Audio)[4] == t;
    case OggVorbis => assert OptionsFor(Audio)[5] == t;
    case Flac => assert OptionsFor(Audio)[6] == t;
    case Wav => assert OptionsFor(Audio)[7] == t;
    case Mp4H264Aac => assert OptionsFor(Video)[0] == t;
    case Mp4H265Aac => assert OptionsFor(Video)[1] == t;
    case WebmVp9Opus => assert OptionsFor(Video)[2] == t;
    case MkvH264Aac => assert OptionsFor(Video)[3] == t;
    case MovH264Aac => assert OptionsFor(Video)[4] == t;
    case GifAnimated => assert OptionsFor(Video)[5] == t;
    case Jpg => assert OptionsFor(Image)[0] == t;
    case Png => assert OptionsFor(Image)[1] == t;
    case Webp => assert OptionsFor(Image)[2] == t;
    case Bmp => assert OptionsFor(Image)[3] == t;
    case Tiff => assert OptionsFor(Image)[4] == t;
    case Heic => assert OptionsFor(Image)[5] == t;
    case ImagePdf => assert OptionsFor(Image)[6] == t;
    case ZipImages => assert OptionsFor(Pdf)[0] == t;
    case TxtPdf => assert OptionsFor(Other)[7] == t;
    case HtmlPdf => assert OptionsFor(Other)[8] == t;
  }

  /** An extension does not identify a target: three groups of targets share
      one extension each, and these are the only collisions. */
  lemma SharedExtensions(t: TargetFormat, u: TargetFormat)
    ensures Extension(Opus) == Extension(WebmVp9Opus) == "webm"
    ensures Extension(Mp4H264Aac) == Extension(Mp4H265Aac) == "mp4"
    ensures Extension(ImagePdf) == Extension(TxtPdf) == Extension(HtmlPdf) == "pdf"
    ensures t != u && Extension(t) == Extension(u) ==>
      Extension(t) in {"webm", "mp4", "pdf"}
  {
  }
}
